=== FILE: README.md ===
# airtouch: a Dafny model of the per-sample pipeline

airtouch reads pressure samples from a serial port, one integer per line. It
converts each sample and smooths it, then appends it to two bounded deques
(`rawdata` and `plotbuf`). A touch/release detector runs over the plot buffer
and reports either "0" (no touch) or a classification of the touch. When Hz
printing is on, the tool also prints an acquisition-rate line every
`bufsize // 4` samples. Key presses
in the plot window stop the loop, tune the smoothing filter, toggle filtering
or tag the log.

This project models the body of `DataGrapher.read_data` in
`src/airtouch.py`: the line guard, the conversion, the two deques, the
hysteresis detector with its debounce, and the Hz counter. It also models the
two key handlers and the two linear conversions `rawPressureToHPA` and
`analog2pressure`.

Layout:

- `parsing.dfy` (`Parsing`): `bytes.strip()` and Python's `int` on the
  stripped line, and a decimal renderer that `int` reads back.
- `conversions.dfy` (`Conversions`): the two affine conversions over exact
  reals, with their inverses.
- `buffers.dfy` (`Buffers`): `deque(maxlen=n).append` as a sequence that drops
  its head when full.
- `detection.dfy` (`Detection`): the population variance that replaces
  `std()`, and the detector step (hysteresis, then the dwell counter and the
  reports) as pure functions.
- `keys.dfy` (`Keys`): `keyPressEvent` and `keyReleaseEvent` as functions of
  the controls they change.
- `pipeline.dfy` (`Pipeline`): one loop iteration (`SampleStep`) as a function
  of the state it updates, and its fold (`Run`) over a sequence of lines, each
  paired with the filter flag in force when it arrives (`Feed`).
  Lemmas cover properties that span samples: the buffer contents, the Hz
  counter, and one report per touch/release episode.
- `grapher.dfy` (`Grapher`): the event loop as a sequence of inputs, where key
  events arrive while a line is awaited (`Await`, `Session`). Any session,
  whatever keys it holds, is proved equal to `Run` over the lines it processes
  (`SessionIsRun`), so the cross-sample properties hold for sessions too. The class
  `DataGrapher` has the source's fields. Its imperative methods `ReadSample`,
  `AcceptSample`, `DetectSample`, `TickHz`, `KeyPress`, `KeyRelease` and
  `ReadData` are each proved equal to the corresponding specification function.

Behaviour of the code that the model keeps:

- `rawPressureToHPA` never adds `pMin` back. The raw count `0x19999A` maps to
  0 hPa, not to `pMin` (`Conversions.RawPressureEndpoints`).
- The classifier's touch window is `t[touchthresh:]`. It is the newest
  `touchthresh` values only when the buffer holds exactly `2 * touchthresh`
  values. With a `bufsize` below `touchthresh` both classifier windows are
  empty (`Detection.ClassifierWindowsLayout`).
- `ddiff` subtracts a plot-buffer value, which may be filtered, from the
  unfiltered `data`.
- `touchcount` is reset only on samples where `touch` is false, not on every
  touch-end transition. A touch that directly follows a classified touch is
  classified on its fall sample (`Detection.RepeatedTouchClassifiesAtOnce`).
- The Hz counter wraps only when `bufsize >= 4`. Below that it counts forever
  (`Pipeline.RunCountNeverWraps`).
- Escape does not stop the loop at once. The line being awaited is still
  processed, and the loop stops only after it
  (`Grapher.EscapeStopsAfterPendingLine`).
- `baselinebuf` is allocated but never written.

## Model

| member | source | states |
|---|---|---|
| `Parsing.Strip` | src/airtouch.py:118 | `bytes.strip()`: the result is no longer than the line, and a non-empty result neither starts nor ends with whitespace |
| `Parsing.ParseInt` | src/airtouch.py:124 | Python's `int` on the stripped line, with None for ValueError: an accepted line ends in a digit, and the value is non-positive after a `-` and non-negative otherwise |
| `Parsing.StripTrims` | src/airtouch.py:118 | `strip()` returns a slice of the line with only whitespace outside it; a non-empty result neither starts nor ends with whitespace |
| `Parsing.StripEmpty` | src/airtouch.py:118-121 | a line strips to nothing (and is skipped) exactly when every byte of it is whitespace |
| `Parsing.ParseRenderRoundTrip` | src/airtouch.py:124 | the model of `int` reads back every integer written in decimal, negative ones with a leading `-` (with no limit on the number of digits) |
| `Parsing.ParseRejectsForeignByte` | src/airtouch.py:123-127 | a line holding a byte other than a digit, `_`, `+` or `-` raises ValueError |
| `Parsing.ParseAcceptsOnlyNumerals` | src/airtouch.py:124 | an accepted line is an optional sign followed by digits, with single underscores only between digits |
| `Conversions.RawPressureToHPA` | src/airtouch.py:17-20 | the offset from 0x19999A, scaled by (pMax - pMin) over the span and by the psi factor: 0 at the bottom count, and, for pMin < pMax and a positive factor, positive exactly above it |
| `Conversions.Analog2Pressure` | src/airtouch.py:229-238 | the pressure read from an ADC count lies on the sensor line: pressure * slope + vmin is the count in volts |
| `Conversions.RawPressureRoundTrip` | src/airtouch.py:17-20 | for pMin != pMax, `rawPressureToHPA` is invertible: the inverse recovers the raw count |
| `Conversions.RawPressureEndpoints` | src/airtouch.py:17-20 | the bottom count 0x19999A reads 0 hPa (pMin is not added back); the top count 0xE66666 reads (pMax - pMin) psi in hPa |
| `Conversions.RawPressureMonotone` | src/airtouch.py:17-20 | with pMin < pMax and a positive psi factor, a larger raw count always reads a larger pressure |
| `Conversions.AnalogRoundTrip` | src/airtouch.py:229-238 | for a sensor with no zero divisor, `analog2pressure` is inverted by the affine map back to ADC counts |
| `Conversions.DefaultSensorSpan` | src/airtouch.py:229-238 | with the default parameters, 0.5 V and 4.5 V (counts 102.4 and 921.6) read 0 and 6 |
| `Buffers.Append` | src/airtouch.py:36-37 | a deque append grows the deque by one until it is full, and then keeps its length at the capacity; the appended value is the newest |
| `Buffers.AppendKeepsNewest` | src/airtouch.py:36-37 | an append keeps the newest `maxlen` values of old contents plus the new one; the new value is last, and the oldest is dropped only when the deque was full |
| `Buffers.AppendAllKeepsNewest` | src/airtouch.py:36-37 | after any sequence of appends, a deque holds exactly the newest `maxlen` values it has seen, in arrival order |
| `Detection.Variance` | src/airtouch.py:144-148 | the population variance of a window, the square of numpy's `std()`, is never negative |
| `Detection.Window` | src/airtouch.py:144 | `touch_buf`: the newest diffsamps plotted values, ending at the newest and starting at the value `ddiff` is taken against |
| `Detection.StdComparedThroughVariance` | src/airtouch.py:146-148 | for the non-negative `sd` whose square is a window's variance, `StdAbove` holds exactly when sd > 7 and `StdBelow` exactly when sd < 7, as the source's `std()` tests say |
| `Detection.ConstantWindowHasNoSpread` | src/airtouch.py:144-148 | a window of equal values has variance 0, so it is below the threshold and not above it |
| `Detection.ClassifierWindowsLayout` | src/airtouch.py:159-161 | with fewer than touchthresh values both windows are empty; otherwise `t[:-touchthresh]` and `t[touchthresh:]` have equal length, and they split the buffer exactly, and the second is the newest `touchthresh` values, each exactly when the buffer holds 2 * touchthresh values |
| `Detection.TransitionOf` | src/airtouch.py:146-151 | a rise only from wait_rise and exactly when the spread is above 7; a fall only from the other state and exactly when the spread is below 7; a fall is a touch exactly when `ddiff > 0` |
| `Detection.AfterTransition` | src/airtouch.py:146-151 | no transition changes nothing; a rise only clears wait_rise; a fall sets wait_rise, clears printed, sets touch to the fall's verdict and leaves the count alone |
| `Detection.Dwell` | src/airtouch.py:154-177 | the count grows by one during a touch and is 0 otherwise; a report happens only when nothing was printed since the last fall, and sets printed; a set printed stays set and silences the sample; no touch leaves printed set |
| `Detection.DetectStep` | src/airtouch.py:142-177 | one post-warm-up sample: a report sets printed; without a fall a set printed silences the sample; wait_rise follows the last transition; touch changes only on a fall |
| `Detection.DetectHysteresis` | src/airtouch.py:142-152 | from wait_rise only a spread above the threshold leaves it; otherwise only a spread below it returns; touch changes only on that fall, to `ddiff > 0` taken strictly |
| `Detection.DetectDwell` | src/airtouch.py:154-177 | touch counts one more sample, no touch resets the count and sets printed; "0" is reported exactly when there is no touch and a fall happened or printed was clear; a classification is reported exactly when the count passes touchthresh and a fall happened or printed was clear; any report sets printed |
| `Detection.ThresholdFiresNeither` | src/airtouch.py:146-148 | a spread exactly at the threshold fires neither transition and leaves wait_rise and touch alone |
| `Detection.ConstantSignalKeepsWaiting` | src/airtouch.py:146-147 | a constant window never starts an event |
| `Detection.RepeatedTouchClassifiesAtOnce` | src/airtouch.py:148-166 | a touch fall that follows a classified touch without a release is classified at once, because the count was not reset |
| `Keys.KeyPress` | src/airtouch.py:203-223 | `keyPressEvent`: run ends up set exactly when it was set and the key is not Escape; a press changes at most one control |
| `Keys.TuningKeyTexts` | src/airtouch.py:207 | `text in '[],.'` holds for exactly eleven texts: the empty text and every contiguous piece of "[],." |
| `Keys.EscapeStops` | src/airtouch.py:205-206 | Escape clears run and changes nothing else, whatever its text |
| `Keys.TuningBranchWithoutStep` | src/airtouch.py:207-217 | the empty text and the longer pieces of "[],." take the tuning branch and change nothing |
| `Keys.CutoffNudges` | src/airtouch.py:208-211 | `,` and `.` move the min cutoff by 0.01 down and up, leave beta and the rest alone, and undo each other |
| `Keys.BetaNudges` | src/airtouch.py:212-215 | `[` and `]` move beta by 0.01 down and up, leave the cutoff and the rest alone, and undo each other |
| `Keys.FilterToggleTwice` | src/airtouch.py:218-219 | `/` negates filterflag; pressing it twice restores every control |
| `Keys.OtherTextTagsEvent` | src/airtouch.py:222-227 | any other text becomes the event tag and changes nothing else; releasing the key clears the tag |
| `Keys.KeyRelease` | src/airtouch.py:226-227 | a key release sets the event tag back to 0 and leaves every other control alone |
| `Pipeline.HzStep` | src/airtouch.py:180-185 | with Hz printing on, the counter advances by one and a rate line is printed, with the counter back at 0, exactly when it reaches `bufsize // 4`; with it off nothing changes |
| `Pipeline.Convert` | src/airtouch.py:130-133 | `data` is the sensor count itself with conversion off, and `rawPressureToHPA` of it with the psi-to-hPa factor with conversion on, reading 0 at the bottom count |
| `Pipeline.Accept` | src/airtouch.py:136-185 | an accepted sample is processed; each deque grows by one until full and then keeps its length, and its newest value is this sample's (`data`, or `fdata` for plotbuf when filtering) |
| `Pipeline.SampleStep` | src/airtouch.py:117-185 | one iteration keeps the deques within capacity and the counter below its period; a sample is processed exactly when its stripped line parses; a skipped line changes nothing |
| `Pipeline.LineGuard` | src/airtouch.py:118-127 | a line that strips to nothing is skipped silently; a non-empty line that `int` rejects is reported, with its stripped text, as a bad line |
| `Pipeline.StepAppends` | src/airtouch.py:136-140 | an accepted line appends `data` to rawdata and, depending on filterflag, `fdata` or `data` to plotbuf, dropping the oldest value only from a full deque |
| `Pipeline.ZeroCapacityStaysEmpty` | src/airtouch.py:36-37 | with bufsize 0 both deques stay empty |
| `Pipeline.WarmUpIdle` | src/airtouch.py:142 | while plotbuf holds at most diffsamps values, the detector fields are unchanged and nothing is reported |
| `Pipeline.Run` | src/airtouch.py:117-185 | the loop over any lines, each with the filter flag in force for it, keeps its state well formed and yields one outcome per line |
| `Pipeline.RunKeepsNewestValues` | src/airtouch.py:117-140 | after any run each deque holds exactly the newest bufsize values it was given, in arrival order; skipped lines leave no trace |
| `Pipeline.RunCountsAcceptedSamples` | src/airtouch.py:180-185 | with Hz printing on and bufsize >= 4, the counter is the number of accepted samples modulo `bufsize // 4` |
| `Pipeline.RunCountNeverWraps` | src/airtouch.py:180-185 | with Hz printing on and bufsize < 4, the counter never wraps: it counts every accepted sample |
| `Pipeline.StepDebounce` | src/airtouch.py:149-177 | a report sets printed; without a fall, a set printed stays set and silences the sample |
| `Pipeline.ReportKeepsPrinted` | src/airtouch.py:149-177 | after a report, printed stays set until the next fall |
| `Pipeline.AtMostOneReportPerEpisode` | src/airtouch.py:149-177 | between any two reports ("0" or a classification) there is a fall: each touch/release episode reports at most once |
| `Grapher.Restarted` | src/airtouch.py:108-113 | `read_data` zeroes the Hz counter and re-arms the rise test, leaving the deques and the other detector fields as they were |
| `Grapher.Await` | src/airtouch.py:117-118 | the loop while it awaits a line, with key events applied as they come: the state stays well formed and there is at most one outcome per input |
| `Grapher.Session` | src/airtouch.py:117 | once run is false the loop does nothing |
| `Grapher.SessionIsRun` | src/airtouch.py:117-227 | any session, whatever key events it holds, ends in the state and with the outcomes of `Run` over the lines it processes, each with the filter flag then in force |
| `Grapher.SessionKeepsNewestValues` | src/airtouch.py:117-140 | with any key events, the deques after a session hold exactly the newest bufsize values of the lines it processed, in arrival order |
| `Grapher.SessionCountsAcceptedSamples` | src/airtouch.py:180-185 | with any key events, and with Hz printing on and bufsize >= 4, the counter is the number of accepted lines modulo `bufsize // 4` |
| `Grapher.SessionReportsOncePerEpisode` | src/airtouch.py:149-177 | with any key events, between any two reports of a session there is a fall |
| `Grapher.SessionOfLines` | src/airtouch.py:117-185 | a session of lines only processes every line with the flag it started with and leaves the controls untouched |
| `Grapher.EscapeWhileConnectingReadsNothing` | src/airtouch.py:105-117 | an Escape delivered while the connection is opened leaves run false at the loop's first test, so the loop reads no line and only the reset of lines 108 and 113 happens |
| `Grapher.EscapeStopsAfterPendingLine` | src/airtouch.py:117-118 | Escape pressed while a line is awaited stops the loop after that line, which is still processed |
| `Grapher.ToggleAppliesToNextLine` | src/airtouch.py:137-140 | `/` pressed between two lines switches what the next line plots |
| `Grapher.KeysLeaveSamplesAlone` | src/airtouch.py:203-227 | key events alone never touch the deques, the detector or the counter, and produce no outcome |
| `Grapher.DataGrapher.constructor` | src/airtouch.py:35-56 | a new grapher starts with empty deques, an idle detector, run and filterflag set, no event tag, cutoff 0.25 and beta 0.1 |
| `Grapher.DataGrapher.ReadSample` | src/airtouch.py:118-140 | the loop body updates the fields exactly as `SampleStep` says and leaves the controls alone |
| `Grapher.DataGrapher.AcceptSample` | src/airtouch.py:136-185 | an accepted sample updates the fields exactly as `Accept` says |
| `Grapher.DataGrapher.DetectSample` | src/airtouch.py:142-177 | the detector fields after a post-warm-up sample, and what it reports, are those of `DetectStep`; the deques and the counter are untouched |
| `Grapher.DataGrapher.TickHz` | src/airtouch.py:180-185 | the counter and the rate-line decision are those of `HzStep` |
| `Grapher.DataGrapher.KeyPress` | src/airtouch.py:203-223 | the controls change as `Keys.KeyPress` says and the sample state not at all |
| `Grapher.DataGrapher.KeyRelease` | src/airtouch.py:226-227 | the event tag is cleared and the sample state is untouched |
| `Grapher.DataGrapher.ReadData` | src/airtouch.py:105-185 | the loop ends with the controls, the fields and the outcomes given by `Session` from the restarted state |

## Left out

- The serial transport (`open_serial_connection`, `readuntil`) is not modelled. The loop gets a sequence of inputs instead, and it ends when that sequence does. The end-of-stream and transport exceptions are not modelled.
- Timestamps (`time.time()`) and the rate value in the Hz line are not modelled. The model records only whether the line is printed.
- Pipeline.HzStep: does not model the ZeroDivisionError that line 183 raises when no clock time has passed since the last rate line, which ends `read_data`. In the model the tick is printed and the loop goes on.
- Parsing.ParseInt: does not model the limit of 4300 digits that newer CPython versions place on `int()` by default. A longer numeral is a bad line there, but the model accepts it and appends its value.
- The `OneEuroFilter` is a foreign library and is not modelled. Its output `fdata` is an input of each line (`Reading.filtered`). The cutoff and beta it reads are fields the key handler changes.
- The pint unit registry is replaced by the constant psi-to-hPa factor `HectopascalsPerPsi`.
- numpy's `std()` over floats is replaced by the exact population variance over reals. It is compared with the squared threshold, which is the same test for non-negative values.
- The classification feature (`median`, `mean`, the division by the baseline) and the classifier call are not modelled. A classification outcome carries the two windows it is computed from. A zero baseline is not guarded in the source, and the model does not look at it.
- The classification print, the "0" print, the "Detected a touch/release" print and the `stderr` message are modelled as the outcome of each iteration. Their text, the CSV log record and the `cutoff: …, beta: …` print of the filter tuning keys (lines 216-217) are not modelled.
- The TCP socket sends are not modelled. The send at line 169 refers to `touch_id`, which is undefined once the model loading (lines 55 and 163-164) is commented out, so with the socket on the first classification raises NameError and ends `read_data`.
- A classification also ends `read_data` when `printlines` or `outpath` is set: line 159 rebinds `t` to `list(self.plotbuf)`, so the `{timestamp:.4f}` format at lines 187-190 raises TypeError. The model is the loop with neither the socket nor logging on, which goes on after a classification.
- The Qt window, plotting and the `-` key's baseline redraw are not modelled. In the model the `-` key changes nothing. The model also does not capture that `self.plotbuf[-1]` raises IndexError when the plot buffer is empty.
- Key events reach `ReadData` only while a line is awaited. Key events delivered while `open_serial_connection` is awaited (lines 106-107) are modelled as `DataGrapher.KeyPress` and `DataGrapher.KeyRelease` calls made before `ReadData`. `ReadData` tests `run` first, so an Escape there stops the loop before any line is read (`Grapher.EscapeWhileConnectingReadsNothing`). Events after the loop has stopped are not modelled.
- `baselinebuf` and `touch_buf` are not modelled. The first is never written. The second is the window `Detection.Window` recomputes.
- Floating-point rounding is not modelled. Python floats are Dafny `real`; Python integers are Dafny `int`, unbounded in both.
- `count` and `wait_rise` are first assigned in `read_data`. The constructor of the model gives them their `read_data` values up front.

=== FILE: buffers.dfy ===
/**
 * The bounded sample buffers: Python's `deque(maxlen=bufsize)`, modelled as a
 * sequence whose head is dropped by an append when it is full.
 */
module Buffers {

  /** The newest `n` elements of `t`, in order (all of `t` when it is shorter). */
  function LastN<T>(t: seq<T>, n: nat): (r: seq<T>)
    ensures |r| == if |t| < n then |t| else n
  {
    t[|t| - (if |t| < n then |t| else n)..]
  }

  /**
   * `deque.append(x)` on a deque of capacity `cap`: keeps the newest `cap`
   * elements of `s + [x]`. A deque of capacity 0 stays empty.
   */
  function Append<T>(s: seq<T>, x: T, cap: nat): (r: seq<T>)
    requires |s| <= cap
    ensures |r| == if |s| < cap then |s| + 1 else cap
    ensures cap > 0 ==> r[|r| - 1] == x
  {
    if cap == 0 then []
    else if |s| < cap then s + [x]
    else s[1..] + [x]
  }

  /**
   * An append keeps the newest `cap` values of what the deque held plus `x`:
   * `x` itself is last, and the oldest value goes only when the deque is full.
   */
  lemma AppendKeepsNewest<T>(s: seq<T>, x: T, cap: nat)
    requires |s| <= cap
    ensures Append(s, x, cap) == LastN(s + [x], cap)
    ensures cap > 0 ==> Append(s, x, cap)[|Append(s, x, cap)| - 1] == x
    ensures |s| < cap ==> Append(s, x, cap) == s + [x]
    ensures 0 < |s| == cap ==> Append(s, x, cap) == s[1..] + [x]
  {
  }

  /** Appending `xs` one by one, in order, starting from `s`. */
  function AppendAll<T>(s: seq<T>, xs: seq<T>, cap: nat): (r: seq<T>)
    requires |s| <= cap
    ensures |r| <= cap
    decreases |xs|
  {
    if xs == [] then s
    else Append(AppendAll(s, xs[..|xs| - 1], cap), xs[|xs| - 1], cap)
  }

  /** Trimming to the newest `n` before an append changes nothing once trimmed again. */
  lemma LastNAppend<T>(t: seq<T>, x: T, n: nat)
    ensures LastN(LastN(t, n) + [x], n) == LastN(t + [x], n)
  {
    var u := LastN(t, n);
    var a := LastN(u + [x], n);
    var b := LastN(t + [x], n);
    assert |a| == |b|;
    forall k | 0 <= k < |a| ensures a[k] == b[k] {
      if k == |a| - 1 {
        assert a[k] == x && b[k] == x;
      } else {
        assert a[k] == u[|u| + 1 - |a| + k];
        assert u[|u| + 1 - |a| + k] == t[|t| - |u| + |u| + 1 - |a| + k];
      }
    }
  }

  /**
   * After any number of appends the buffer holds exactly the newest `cap`
   * values of everything it has seen, in arrival order.
   */
  lemma {:induction false} AppendAllKeepsNewest<T>(s: seq<T>, xs: seq<T>, cap: nat)
    requires |s| <= cap
    ensures AppendAll(s, xs, cap) == LastN(s + xs, cap)
    decreases |xs|
  {
    if xs == [] {
      assert s + xs == s;
    } else {
      var init := xs[..|xs| - 1];
      var x := xs[|xs| - 1];
      AppendAllKeepsNewest(s, init, cap);
      AppendKeepsNewest(AppendAll(s, init, cap), x, cap);
      LastNAppend(s + init, x, cap);
      assert xs == init + [x];
      ConcatAssoc(s, init, [x]);
    }
  }

  lemma ConcatAssoc<T>(a: seq<T>, b: seq<T>, c: seq<T>)
    ensures a + b + c == a + (b + c)
  {
  }
}

=== FILE: conversions.dfy ===
/**
 * The two linear conversions of the sensor tool, over exact reals:
 * `rawPressureToHPA` (24-bit sensor count to hectopascals) and
 * `analog2pressure` (ADC count of an analog sensor to pressure).
 */
module Conversions {

  /** Raw sensor counts of the calibrated span: 10% and 90% of 2^24. */
  const RawLow: int := 0x19999A
  const RawHigh: int := 0xE66666
  const RawSpan: real := (RawHigh - RawLow) as real

  /** One psi in hectopascals (pound-force per square inch). */
  const HectopascalsPerPsi: real := 68.94757293168361

  /**
   * `rawPressureToHPA(p, pMin, pMax)`: scales the count's offset from RawLow
   * by (pMax - pMin) / RawSpan to psi, then converts psi to hPa with the
   * factor `hpaPerPsi`. The lower bound pMin is not added back.
   */
  function RawPressureToHPA(p: int, pMin: real, pMax: real, hpaPerPsi: real): (h: real)
    ensures p == RawLow ==> h == 0.0
    // with an increasing range and factor, a pressure reads above zero exactly above the bottom count
    ensures pMin < pMax && hpaPerPsi > 0.0 ==> (h > 0.0 <==> p > RawLow)
  {
    ((p - RawLow) as real * (pMax - pMin)) / RawSpan * hpaPerPsi
  }

  /** Inverse of RawPressureToHPA: the (fractional) sensor count for a pressure. */
  function HPAToRawCount(h: real, pMin: real, pMax: real, hpaPerPsi: real): real
    requires pMax != pMin && hpaPerPsi != 0.0
  {
    h / hpaPerPsi * RawSpan / (pMax - pMin) + RawLow as real
  }

  lemma RawPressureRoundTrip(p: int, pMin: real, pMax: real, hpaPerPsi: real)
    requires pMax != pMin && hpaPerPsi != 0.0
    ensures HPAToRawCount(RawPressureToHPA(p, pMin, pMax, hpaPerPsi), pMin, pMax, hpaPerPsi) == p as real
  {
    var d := (p - RawLow) as real;
    var h := RawPressureToHPA(p, pMin, pMax, hpaPerPsi);
    assert h / hpaPerPsi == d * (pMax - pMin) / RawSpan;
    assert h / hpaPerPsi * RawSpan == d * (pMax - pMin);
  }

  /**
   * The calibrated span maps onto [0, (pMax - pMin) psi]: the bottom count
   * gives 0, not pMin, and the top count gives pMax - pMin psi.
   */
  lemma RawPressureEndpoints(pMin: real, pMax: real, hpaPerPsi: real)
    ensures RawPressureToHPA(RawLow, pMin, pMax, hpaPerPsi) == 0.0
    ensures RawPressureToHPA(RawHigh, pMin, pMax, hpaPerPsi) == (pMax - pMin) * hpaPerPsi
  {
  }

  /** With pMin < pMax the conversion is strictly increasing in the count. */
  lemma RawPressureMonotone(p: int, q: int, pMin: real, pMax: real, hpaPerPsi: real)
    requires pMin < pMax && hpaPerPsi > 0.0 && p < q
    ensures RawPressureToHPA(p, pMin, pMax, hpaPerPsi) < RawPressureToHPA(q, pMin, pMax, hpaPerPsi)
  {
    var a := (p - RawLow) as real;
    var b := (q - RawLow) as real;
    var w := pMax - pMin;
    assert a * w < b * w;
    assert a * w / RawSpan < b * w / RawSpan;
  }

  /** Parameters of `analog2pressure`; the defaults are those of the source. */
  datatype AnalogSensor = AnalogSensor(
    vmin: real, vmax: real, pmin: real, pmax: real, resolution: real, workingVoltage: real)

  const DefaultSensor: AnalogSensor := AnalogSensor(0.5, 4.5, 0.0, 6.0, 1024.0, 5.0)

  /** No divisor of `analog2pressure` is zero. */
  predicate Readable(s: AnalogSensor) {
    s.vmax != s.vmin && s.pmax != s.pmin && s.resolution != 0.0
  }

  /** No divisor of `analog2pressure` or of its inverse is zero. */
  predicate Calibrated(s: AnalogSensor) {
    Readable(s) && s.workingVoltage != 0.0
  }

  function VoltsPerBit(s: AnalogSensor): real
    requires s.resolution != 0.0
  {
    s.workingVoltage / s.resolution
  }

  /** Slope m of the sensor's line v = m * p + vmin. */
  function Slope(s: AnalogSensor): real
    requires s.pmax != s.pmin
  {
    (s.vmax - s.vmin) / (s.pmax - s.pmin)
  }

  /** `analog2pressure(volts)`: (count * volts-per-bit - vmin) / m, without adding pmin. */
  function Analog2Pressure(volts: real, s: AnalogSensor): (p: real)
    requires Readable(s)
    // the reading lies on the sensor's line v = m * p + vmin
    ensures p * Slope(s) + s.vmin == volts * VoltsPerBit(s)
  {
    var v := volts * VoltsPerBit(s);
    (v - s.vmin) * 1.0 / Slope(s)
  }

  /** Inverse of Analog2Pressure: the ADC count that reads as pressure `p`. */
  function PressureToAnalog(p: real, s: AnalogSensor): real
    requires Calibrated(s)
  {
    (p * Slope(s) + s.vmin) / VoltsPerBit(s)
  }

  lemma AnalogRoundTrip(volts: real, s: AnalogSensor)
    requires Calibrated(s)
    ensures PressureToAnalog(Analog2Pressure(volts, s), s) == volts
  {
    var m := Slope(s);
    var k := VoltsPerBit(s);
    assert m != 0.0 && k != 0.0;
    var p := Analog2Pressure(volts, s);
    assert p * m == volts * k - s.vmin;
  }

  /** With the default sensor, counts 102.4 and 921.6 (0.5 V and 4.5 V) read 0 and 6. */
  lemma DefaultSensorSpan()
    ensures Calibrated(DefaultSensor)
    ensures Analog2Pressure(102.4, DefaultSensor) == 0.0
    ensures Analog2Pressure(921.6, DefaultSensor) == 6.0
  {
  }
}

=== FILE: detection.dfy ===
/**
 * Touch/release detection on the plot buffer: a two-state hysteresis machine
 * driven by the standard deviation of the newest DiffSamps plotted values,
 * followed by the dwell counter that debounces the "no touch" report and the
 * classification trigger.
 */
module Detection {

  /** How far back the window and the touch/release delta look. */
  const DiffSamps: nat := 100
  /** Standard deviation above which an event is under way. */
  const EventThresh: real := 7.0
  /** Touch samples to dwell before classifying. */
  const TouchThresh: nat := 1000

  /** Sum of the first `n` values of `w`. */
  function SumTo(w: seq<real>, n: nat): real
    requires n <= |w|
  {
    if n == 0 then 0.0 else SumTo(w, n - 1) + w[n - 1]
  }

  function Mean(w: seq<real>): real
    requires |w| > 0
  {
    SumTo(w, |w|) / |w| as real
  }

  lemma ProductOfPositives(a: real, b: real)
    requires a > 0.0 && b > 0.0
    ensures a * b > 0.0
  {
  }

  lemma SquareNonNegative(x: real)
    ensures x * x >= 0.0
  {
    if x > 0.0 {
      ProductOfPositives(x, x);
    } else if x < 0.0 {
      ProductOfPositives(-x, -x);
    }
  }

  /** Sum of squared deviations from `m` of the first `n` values of `w`. */
  function SquaredDeviationTo(w: seq<real>, m: real, n: nat): (r: real)
    requires n <= |w|
    ensures r >= 0.0
  {
    if n == 0 then 0.0
    else
      var e := w[n - 1] - m;
      SquareNonNegative(e);
      SquaredDeviationTo(w, m, n - 1) + e * e
  }

  /**
   * Population variance (numpy's `std()` squared, ddof = 0). Comparing the
   * standard deviation with EventThresh >= 0 is comparing this with its square.
   */
  function Variance(w: seq<real>): (r: real)
    requires |w| > 0
    ensures r >= 0.0
  {
    SquaredDeviationTo(w, Mean(w), |w|) / |w| as real
  }

  /** For non-negative values, comparing two numbers is comparing their squares. */
  lemma SquaresOrdered(a: real, b: real)
    requires a >= 0.0 && b >= 0.0
    ensures a > b <==> a * a > b * b
    ensures a < b <==> a * a < b * b
  {
    assert a * a - b * b == (a - b) * (a + b);
    if a > b {
      ProductOfPositives(a - b, a + b);
    } else if a < b {
      ProductOfPositives(b - a, a + b);
    }
  }

  /**
   * The detector's variance tests are the source's standard-deviation tests:
   * for the non-negative `sd` whose square is the window's variance,
   * StdAbove holds exactly when sd > EventThresh and StdBelow exactly when
   * sd < EventThresh.
   */
  lemma StdComparedThroughVariance(w: seq<real>, sd: real)
    requires |w| > 0 && sd >= 0.0 && sd * sd == Variance(w)
    ensures StdAbove(w) <==> sd > EventThresh
    ensures StdBelow(w) <==> sd < EventThresh
  {
    SquaresOrdered(sd, EventThresh);
  }

  predicate StdAbove(w: seq<real>)
    requires |w| > 0
  {
    Variance(w) > EventThresh * EventThresh
  }

  predicate StdBelow(w: seq<real>)
    requires |w| > 0
  {
    Variance(w) < EventThresh * EventThresh
  }

  lemma {:induction false} SumOfConstant(w: seq<real>, c: real, n: nat)
    requires n <= |w|
    requires forall k :: 0 <= k < |w| ==> w[k] == c
    ensures SumTo(w, n) == n as real * c
  {
    if n > 0 {
      SumOfConstant(w, c, n - 1);
    }
  }

  lemma {:induction false} SquaredDeviationOfConstant(w: seq<real>, c: real, n: nat)
    requires n <= |w|
    requires forall k :: 0 <= k < |w| ==> w[k] == c
    ensures SquaredDeviationTo(w, c, n) == 0.0
  {
    if n > 0 {
      SquaredDeviationOfConstant(w, c, n - 1);
    }
  }

  /** A constant window has no spread. */
  lemma ConstantWindowHasNoSpread(w: seq<real>, c: real)
    requires |w| > 0
    requires forall k :: 0 <= k < |w| ==> w[k] == c
    ensures Variance(w) == 0.0
    ensures !StdAbove(w) && StdBelow(w)
  {
    SumOfConstant(w, c, |w|);
    assert Mean(w) == c;
    SquaredDeviationOfConstant(w, c, |w|);
  }

  /** The fields `wait_rise`, `touch`, `touchcount` and `printed`. */
  datatype DetectorState = DetectorState(waitRise: bool, touch: bool, touchcount: nat, printed: bool)

  const InitialDetector: DetectorState := DetectorState(true, false, 0, false)

  /** What the hysteresis test did on one sample; a fall announces touch or release. */
  datatype Transition = Steady | Rise | Fall(touched: bool)

  /** What was reported on one sample: nothing, the "0" (no touch) line, or a classification. */
  datatype Report = Silent | NoTouch | Classify(baseline: seq<real>, touching: seq<real>)

  /** The newest DiffSamps plotted values, whose spread drives the machine. */
  function Window(buf: seq<real>): (w: seq<real>)
    requires |buf| > DiffSamps
    ensures |w| == DiffSamps
    // it ends at the newest value and starts at the one `ddiff` is taken against
    ensures w[DiffSamps - 1] == buf[|buf| - 1] && w[0] == buf[|buf| - DiffSamps]
  {
    buf[|buf| - DiffSamps..]
  }

  /** `t[:-touchthresh]`: all but the last TouchThresh values (empty if there are fewer). */
  function BaselineWindow(t: seq<real>): seq<real> {
    t[..|t| - (if |t| < TouchThresh then |t| else TouchThresh)]
  }

  /** `t[touchthresh:]`: everything after the first TouchThresh values. */
  function TouchWindow(t: seq<real>): seq<real> {
    t[(if |t| < TouchThresh then |t| else TouchThresh)..]
  }

  /**
   * The classifier's two windows have the same length, the touch window ends
   * at the newest value, and they split the buffer into baseline and touch
   * exactly when it holds 2 * TouchThresh values; the touch window is the
   * newest TouchThresh values only then. A buffer shorter than TouchThresh
   * gives two empty windows.
   */
  lemma ClassifierWindowsLayout(t: seq<real>)
    // with fewer than TouchThresh values (a smaller bufsize) both windows are empty
    ensures |t| < TouchThresh ==> BaselineWindow(t) == [] && TouchWindow(t) == []
    ensures |t| >= TouchThresh ==>
      && |BaselineWindow(t)| == |TouchWindow(t)| == |t| - TouchThresh
      && BaselineWindow(t) == t[..|t| - TouchThresh] && TouchWindow(t) == t[TouchThresh..]
    ensures |t| >= TouchThresh ==> (BaselineWindow(t) + TouchWindow(t) == t <==> |t| == 2 * TouchThresh)
    ensures |t| >= TouchThresh ==> (TouchWindow(t) == t[|t| - TouchThresh..] <==> |t| == 2 * TouchThresh)
  {
    if |t| == 2 * TouchThresh {
      assert t[..TouchThresh] + t[TouchThresh..] == t;
    } else if |t| >= TouchThresh {
      assert |BaselineWindow(t) + TouchWindow(t)| != |t|;
    }
  }

  /** The hysteresis test of one sample (lines 146-151 of the source). */
  function TransitionOf(d: DetectorState, w: seq<real>, ddiff: real): (t: Transition)
    requires |w| > 0
    // a rise only while waiting for one, a fall only while an event is under way
    ensures d.waitRise ==> (t == Rise <==> StdAbove(w)) && !t.Fall?
    ensures !d.waitRise ==> (t.Fall? <==> StdBelow(w)) && t != Rise
    ensures t.Fall? ==> t.touched == (ddiff > 0.0)
  {
    if d.waitRise && StdAbove(w) then Rise
    else if !d.waitRise && StdBelow(w) then Fall(ddiff > 0.0)
    else Steady
  }

  /** The state updates of a transition (lines 147 and 149-151). */
  function AfterTransition(d: DetectorState, tr: Transition): (r: DetectorState)
    ensures tr == Steady ==> r == d
    ensures tr == Rise ==> !r.waitRise && r.(waitRise := d.waitRise) == d
    // the fall re-arms the rise test, clears printed and decides touch; the count is left alone
    ensures tr.Fall? ==> r.waitRise && !r.printed && r.touch == tr.touched && r.touchcount == d.touchcount
  {
    match tr
    case Steady => d
    case Rise => d.(waitRise := false)
    case Fall(touched) => d.(printed := false, waitRise := true, touch := touched)
  }

  /** The dwell counter, the "0" report and the classification trigger. */
  function Dwell(d: DetectorState, buf: seq<real>): (r: (DetectorState, Report))
    ensures r.0.waitRise == d.waitRise && r.0.touch == d.touch
    ensures r.0.touchcount == if d.touch then d.touchcount + 1 else 0
    // a report only when nothing was printed since the last fall, and it is remembered
    ensures r.1 != Silent ==> !d.printed && r.0.printed
    ensures d.printed ==> r.0.printed && r.1 == Silent
    ensures !d.touch ==> r.0.printed
  {
    if d.touch then
      var n := d.touchcount + 1;
      if n > TouchThresh && !d.printed then
        (d.(touchcount := n, printed := true), Classify(BaselineWindow(buf), TouchWindow(buf)))
      else (d.(touchcount := n), Silent)
    else
      (d.(touchcount := 0, printed := true), if d.printed then Silent else NoTouch)
  }

  /**
   * One post-warm-up sample: `data` is the unfiltered value and `buf` the plot
   * buffer after it received this sample.
   */
  function DetectStep(d: DetectorState, data: real, buf: seq<real>): (r: (DetectorState, Transition, Report))
    requires |buf| > DiffSamps
    // the debounce: a report sets printed, and without a fall a set printed silences the sample
    ensures r.2 != Silent ==> r.0.printed
    ensures d.printed && !r.1.Fall? ==> r.0.printed && r.2 == Silent
    // wait_rise tracks the last transition; touch changes only on a fall
    ensures r.0.waitRise == (if r.1 == Steady then d.waitRise else r.1.Fall?)
    ensures !r.1.Fall? ==> r.0.touch == d.touch
  {
    var tr := TransitionOf(d, Window(buf), data - buf[|buf| - DiffSamps]);
    var (d1, report) := Dwell(AfterTransition(d, tr), buf);
    (d1, tr, report)
  }

  /**
   * The hysteresis: from `wait_rise` only a spread above the threshold leaves
   * it, and from the other state only a spread below it returns; touch is
   * decided on the fall only, by the strict sign of the delta against the
   * value DiffSamps samples back.
   */
  lemma DetectHysteresis(d: DetectorState, data: real, buf: seq<real>)
    requires |buf| > DiffSamps
    ensures var r := DetectStep(d, data, buf);
      && (d.waitRise ==> (r.1 == Rise <==> StdAbove(Window(buf))) && !r.1.Fall?)
      && (d.waitRise ==> r.0.waitRise == !StdAbove(Window(buf)))
      && (!d.waitRise ==> (r.1.Fall? <==> StdBelow(Window(buf))) && r.1 != Rise)
      && (!d.waitRise ==> r.0.waitRise == StdBelow(Window(buf)))
      && (r.1.Fall? ==> r.1.touched == (data - buf[|buf| - DiffSamps] > 0.0) && r.0.touch == r.1.touched)
      && (!r.1.Fall? ==> r.0.touch == d.touch)
  {
  }

  /**
   * The dwell counter: a touch counts one more sample, anything else resets
   * the count to 0; the "0" line and the classification are each reported
   * once, and a report is remembered in `printed` until the next fall.
   */
  lemma DetectDwell(d: DetectorState, data: real, buf: seq<real>)
    requires |buf| > DiffSamps
    ensures var r := DetectStep(d, data, buf);
      && (r.0.touch ==> r.0.touchcount == d.touchcount + 1)
      && (!r.0.touch ==> r.0.touchcount == 0 && r.0.printed)
      && (r.2.Classify? <==> r.0.touch && d.touchcount + 1 > TouchThresh && (r.1.Fall? || !d.printed))
      && (r.2 == NoTouch <==> !r.0.touch && (r.1.Fall? || !d.printed))
      && (r.2.Classify? ==> r.2 == Classify(BaselineWindow(buf), TouchWindow(buf)))
      && (r.2 != Silent ==> r.0.printed)
      && (!r.1.Fall? && d.printed ==> r.0.printed)
  {
  }

  /** A spread exactly at the threshold fires neither transition. */
  lemma ThresholdFiresNeither(d: DetectorState, data: real, buf: seq<real>)
    requires |buf| > DiffSamps && Variance(Window(buf)) == EventThresh * EventThresh
    ensures DetectStep(d, data, buf).1 == Steady
    ensures DetectStep(d, data, buf).0.waitRise == d.waitRise && DetectStep(d, data, buf).0.touch == d.touch
  {
  }

  /** A steady signal never starts an event. */
  lemma ConstantSignalKeepsWaiting(d: DetectorState, data: real, buf: seq<real>, c: real)
    requires |buf| > DiffSamps && d.waitRise
    requires forall k :: |buf| - DiffSamps <= k < |buf| ==> buf[k] == c
    ensures DetectStep(d, data, buf).0.waitRise && DetectStep(d, data, buf).1 == Steady
  {
    var w := Window(buf);
    forall k | 0 <= k < |w|
      ensures w[k] == c
    {
      assert w[k] == buf[|buf| - DiffSamps + k];
    }
    ConstantWindowHasNoSpread(w, c);
  }

  /**
   * The dwell count is not reset by a fall: a touch that follows a classified
   * touch with no release in between is classified on the very sample of its
   * fall, without dwelling.
   */
  lemma RepeatedTouchClassifiesAtOnce(d: DetectorState, data: real, buf: seq<real>)
    requires |buf| > DiffSamps && !d.waitRise && d.touch && d.touchcount >= TouchThresh
    requires StdBelow(Window(buf)) && data - buf[|buf| - DiffSamps] > 0.0
    ensures DetectStep(d, data, buf).1 == Fall(true)
    ensures DetectStep(d, data, buf).2.Classify?
  {
  }
}

=== FILE: grapher.dfy ===
/**
 * The `DataGrapher` object: its fields, the ingestion loop `read_data` as a
 * method that updates them sample by sample, and the two key handlers. Key
 * events reach the object only while the loop awaits the next line, so a
 * session is a sequence of inputs in which key events sit between lines.
 */
module Grapher {
  import opened Parsing
  import opened Buffers
  import opened Detection
  import opened Pipeline
  import Keys

  /** What the event loop receives: a line from the serial port, or a key event. */
  datatype Input = Line(reading: Reading) | Press(key: int, text: string) | Release

  /** `read_data` resets the Hz counter and re-arms the rise test before its loop. */
  function Restarted(s: Samples): (r: Samples)
    ensures r.plotbuf == s.plotbuf && r.rawdata == s.rawdata
    ensures r.count == 0 && r.detector.waitRise
    ensures r.detector.(waitRise := s.detector.waitRise) == s.detector
  {
    s.(count := 0, detector := s.detector.(waitRise := true))
  }

  /**
   * The loop from input `i` on, while it awaits a line: key events update the
   * controls; a line is processed with the filter flag then in force, and
   * afterwards the loop goes on only if `run` still holds. Ends when the
   * inputs run out.
   */
  function Await(cfg: Config, c: Keys.Controls, s: Samples, ins: seq<Input>, i: nat): (r: (Keys.Controls, Samples, seq<Outcome>))
    requires WellFormed(cfg, s) && i <= |ins|
    ensures WellFormed(cfg, r.1)
    ensures |r.2| <= |ins| - i
    decreases |ins| - i
  {
    if i == |ins| then (c, s, [])
    else match ins[i]
      case Press(key, text) => Await(cfg, Keys.KeyPress(c, key, text), s, ins, i + 1)
      case Release => Await(cfg, Keys.KeyRelease(c), s, ins, i + 1)
      case Line(reading) =>
        var (s1, o) := SampleStep(cfg, c.filterflag, s, reading);
        if c.run then
          var (c2, s2, outs) := Await(cfg, c, s1, ins, i + 1);
          (c2, s2, [o] + outs)
        else (c, s1, [o])
  }

  /** `while self.run:` from input `i` on — nothing happens once `run` is false. */
  function Session(cfg: Config, c: Keys.Controls, s: Samples, ins: seq<Input>, i: nat): (r: (Keys.Controls, Samples, seq<Outcome>))
    requires WellFormed(cfg, s) && i <= |ins|
    ensures WellFormed(cfg, r.1)
    ensures !c.run ==> r == (c, s, [])
  {
    if c.run then Await(cfg, c, s, ins, i) else (c, s, [])
  }

  /**
   * The lines the loop processes from input `i` on, while it awaits a line,
   * each with the filter flag in force when it arrives; after a line that
   * finds `run` cleared nothing more is taken.
   */
  function Consumed(c: Keys.Controls, ins: seq<Input>, i: nat): (fs: seq<Feed>)
    requires i <= |ins|
    ensures |fs| <= |ins| - i
    decreases |ins| - i
  {
    if i == |ins| then []
    else match ins[i]
      case Press(key, text) => Consumed(Keys.KeyPress(c, key, text), ins, i + 1)
      case Release => Consumed(Keys.KeyRelease(c), ins, i + 1)
      case Line(reading) => [Feed(reading, c.filterflag)] + (if c.run then Consumed(c, ins, i + 1) else [])
  }

  /** The lines a whole session processes. */
  function SessionFeeds(c: Keys.Controls, ins: seq<Input>): seq<Feed> {
    if c.run then Consumed(c, ins, 0) else []
  }

  /** Awaiting from input `i` on is the run of the loop body over the lines it consumes. */
  lemma {:induction false} AwaitIsRun(cfg: Config, c: Keys.Controls, s: Samples, ins: seq<Input>, i: nat)
    requires WellFormed(cfg, s) && i <= |ins|
    ensures Await(cfg, c, s, ins, i).1 == Run(cfg, s, Consumed(c, ins, i)).0
    ensures Await(cfg, c, s, ins, i).2 == Run(cfg, s, Consumed(c, ins, i)).1
    decreases |ins| - i
  {
    if i < |ins| {
      match ins[i]
      case Press(key, text) =>
        AwaitIsRun(cfg, Keys.KeyPress(c, key, text), s, ins, i + 1);
      case Release =>
        AwaitIsRun(cfg, Keys.KeyRelease(c), s, ins, i + 1);
      case Line(reading) =>
        var fs := Consumed(c, ins, i);
        var s1 := SampleStep(cfg, c.filterflag, s, reading).0;
        RunCons(cfg, s, fs);
        assert fs[0] == Feed(reading, c.filterflag);
        if c.run {
          AwaitIsRun(cfg, c, s1, ins, i + 1);
          assert fs[1..] == Consumed(c, ins, i + 1);
        } else {
          assert fs[1..] == [];
        }
    }
  }

  /**
   * Any session, whatever key events it holds, ends in the state and with
   * the outcomes of the loop body run over the lines it processes, each with
   * the filter flag in force for it.
   */
  lemma SessionIsRun(cfg: Config, c: Keys.Controls, s: Samples, ins: seq<Input>)
    requires WellFormed(cfg, s)
    ensures Session(cfg, c, s, ins, 0).1 == Run(cfg, s, SessionFeeds(c, ins)).0
    ensures Session(cfg, c, s, ins, 0).2 == Run(cfg, s, SessionFeeds(c, ins)).1
  {
    if c.run {
      AwaitIsRun(cfg, c, s, ins, 0);
    }
  }

  /**
   * Whatever keys are pressed, the deques after a session hold exactly the
   * newest `bufsize` values of the lines it processed, in arrival order.
   */
  lemma SessionKeepsNewestValues(cfg: Config, c: Keys.Controls, s: Samples, ins: seq<Input>)
    requires WellFormed(cfg, s)
    ensures Session(cfg, c, s, ins, 0).1.rawdata == LastN(s.rawdata + Accepted(cfg, SessionFeeds(c, ins)), cfg.bufsize)
    ensures Session(cfg, c, s, ins, 0).1.plotbuf == LastN(s.plotbuf + Plotted(cfg, SessionFeeds(c, ins)), cfg.bufsize)
  {
    SessionIsRun(cfg, c, s, ins);
    RunKeepsNewestValues(cfg, s, SessionFeeds(c, ins));
  }

  /** Whatever keys are pressed, the Hz counter counts the accepted lines modulo `bufsize // 4`. */
  lemma SessionCountsAcceptedSamples(cfg: Config, c: Keys.Controls, s: Samples, ins: seq<Input>)
    requires WellFormed(cfg, s) && cfg.printHz && HzPeriod(cfg) > 0
    ensures Session(cfg, c, s, ins, 0).1.count == (s.count + AcceptedCount(SessionFeeds(c, ins))) % HzPeriod(cfg)
  {
    SessionIsRun(cfg, c, s, ins);
    RunCountsAcceptedSamples(cfg, s, SessionFeeds(c, ins));
  }

  /** Whatever keys are pressed, between two reports of a session there is a fall. */
  lemma SessionReportsOncePerEpisode(cfg: Config, c: Keys.Controls, s: Samples, ins: seq<Input>, i: nat, j: nat)
    requires WellFormed(cfg, s)
    requires i < j < |Session(cfg, c, s, ins, 0).2|
    requires IsReport(Session(cfg, c, s, ins, 0).2[i]) && IsReport(Session(cfg, c, s, ins, 0).2[j])
    ensures exists k :: i < k <= j && IsFall(Session(cfg, c, s, ins, 0).2[k])
  {
    SessionIsRun(cfg, c, s, ins);
    AtMostOneReportPerEpisode(cfg, s, SessionFeeds(c, ins), i, j);
  }

  /** The inputs of a session made only of lines. */
  function Lines(rs: seq<Reading>): (ins: seq<Input>)
    ensures |ins| == |rs| && forall k :: 0 <= k < |rs| ==> ins[k] == Line(rs[k])
  {
    seq(|rs|, k requires 0 <= k < |rs| => Line(rs[k]))
  }

  /** The lines `rs`, each with the filter flag `flag`. */
  function Flagged(rs: seq<Reading>, flag: bool): (fs: seq<Feed>)
    ensures |fs| == |rs| && forall k :: 0 <= k < |rs| ==> fs[k] == Feed(rs[k], flag)
  {
    seq(|rs|, k requires 0 <= k < |rs| => Feed(rs[k], flag))
  }

  /**
   * A session of lines only, with `run` set, processes every line with the
   * flag it started with and leaves the controls untouched.
   */
  lemma SessionOfLines(cfg: Config, c: Keys.Controls, s: Samples, rs: seq<Reading>)
    requires WellFormed(cfg, s) && c.run
    ensures Session(cfg, c, s, Lines(rs), 0).0 == c
    ensures SessionFeeds(c, Lines(rs)) == Flagged(rs, c.filterflag)
  {
    AwaitOfLines(cfg, c, s, rs, 0);
    assert Flagged(rs, c.filterflag)[0..] == Flagged(rs, c.filterflag);
  }

  lemma {:induction false} AwaitOfLines(cfg: Config, c: Keys.Controls, s: Samples, rs: seq<Reading>, i: nat)
    requires WellFormed(cfg, s) && c.run && i <= |rs|
    ensures Await(cfg, c, s, Lines(rs), i).0 == c
    ensures Consumed(c, Lines(rs), i) == Flagged(rs, c.filterflag)[i..]
    decreases |rs| - i
  {
    if i < |rs| {
      var fs := Flagged(rs, c.filterflag);
      var s1 := SampleStep(cfg, c.filterflag, s, rs[i]).0;
      AwaitOfLines(cfg, c, s1, rs, i + 1);
      assert fs[i..] == [fs[i]] + fs[i + 1..];
    }
  }

  /**
   * Escape stops the loop, but the line it was awaiting is still processed:
   * after that line nothing further is read.
   */
  lemma EscapeStopsAfterPendingLine(cfg: Config, c: Keys.Controls, s: Samples, text: string, r: Reading, rest: seq<Input>)
    requires WellFormed(cfg, s) && c.run
    ensures Session(cfg, c, s, [Press(Keys.EscapeKey, text), Line(r)] + rest, 0) ==
      (c.(run := false), SampleStep(cfg, c.filterflag, s, r).0, [SampleStep(cfg, c.filterflag, s, r).1])
  {
    var ins := [Press(Keys.EscapeKey, text), Line(r)] + rest;
    Keys.EscapeStops(c, text);
    var c1 := c.(run := false);
    assert ins[0] == Press(Keys.EscapeKey, text) && ins[1] == Line(r);
    assert Session(cfg, c, s, ins, 0) == Await(cfg, c1, s, ins, 1);
  }

  /**
   * An Escape delivered while the serial connection is being opened clears
   * `run` before the loop's first test: the loop then reads no line at all.
   */
  lemma EscapeWhileConnectingReadsNothing(cfg: Config, c: Keys.Controls, s: Samples, text: string, ins: seq<Input>)
    requires WellFormed(cfg, s)
    ensures var c1 := Keys.KeyPress(c, Keys.EscapeKey, text);
      Session(cfg, c1, Restarted(s), ins, 0) == (c1, Restarted(s), [])
  {
    Keys.EscapeStops(c, text);
  }

  /** `/` between two lines switches which value the next line plots. */
  lemma ToggleAppliesToNextLine(cfg: Config, c: Keys.Controls, s: Samples, key: int, r: Reading, rest: seq<Input>)
    requires WellFormed(cfg, s) && c.run && key != Keys.EscapeKey
    ensures Session(cfg, c, s, [Press(key, "/"), Line(r)] + rest, 0).2 != []
    ensures Session(cfg, c, s, [Press(key, "/"), Line(r)] + rest, 0).2[0] == SampleStep(cfg, !c.filterflag, s, r).1
  {
    var ins := [Press(key, "/"), Line(r)] + rest;
    assert ins[0] == Press(key, "/") && ins[1] == Line(r);
    Keys.FilterToggleTwice(c, key);
    var c1 := Keys.KeyPress(c, key, "/");
    assert c1.run && c1.filterflag == !c.filterflag;
    assert Session(cfg, c, s, ins, 0) == Await(cfg, c1, s, ins, 1);
    var (s1, o) := SampleStep(cfg, c1.filterflag, s, r);
    assert Await(cfg, c1, s, ins, 1).2 == [o] + Await(cfg, c1, s1, ins, 2).2;
  }

  /** Key events alone never touch the buffers, the detector or the counter, and print nothing. */
  lemma {:induction false} KeysLeaveSamplesAlone(cfg: Config, c: Keys.Controls, s: Samples, ins: seq<Input>, i: nat)
    requires WellFormed(cfg, s) && i <= |ins|
    requires forall k :: i <= k < |ins| ==> !ins[k].Line?
    ensures Await(cfg, c, s, ins, i).1 == s && Await(cfg, c, s, ins, i).2 == []
    decreases |ins| - i
  {
    if i < |ins| {
      match ins[i]
      case Press(key, text) =>
        KeysLeaveSamplesAlone(cfg, Keys.KeyPress(c, key, text), s, ins, i + 1);
      case Release =>
        KeysLeaveSamplesAlone(cfg, Keys.KeyRelease(c), s, ins, i + 1);
    }
  }

  class DataGrapher {
    const bufsize: nat
    const convertPressure: bool
    const pMin: real
    const pMax: real
    const printHz: bool

    // controls changed by the key handlers (`f`'s cutoff and beta included)
    var run: bool
    var filterflag: bool
    var event: Keys.EventTag
    var minCutoff: real
    var beta: real

    // state changed by the ingestion loop
    var plotbuf: seq<real>
    var rawdata: seq<real>
    var waitRise: bool
    var touch: bool
    var touchcount: nat
    var printed: bool
    var count: nat

    function Settings(): Config {
      Config(bufsize, convertPressure, pMin, pMax, printHz)
    }

    function State(): Samples
      reads this
    {
      Samples(plotbuf, rawdata, Detector(), count)
    }

    function ControlState(): Keys.Controls
      reads this
    {
      Keys.Controls(run, filterflag, event, minCutoff, beta)
    }

    ghost predicate Valid()
      reads this
    {
      WellFormed(Settings(), State())
    }

    constructor (bufsize: nat, convertPressure: bool, pMin: real, pMax: real, printHz: bool)
      ensures Valid()
      ensures Settings() == Config(bufsize, convertPressure, pMin, pMax, printHz)
      ensures State() == InitialSamples && ControlState() == Keys.InitialControls
    {
      this.bufsize := bufsize;
      this.convertPressure := convertPressure;
      this.pMin := pMin;
      this.pMax := pMax;
      this.printHz := printHz;
      run := true;
      filterflag := true;
      event := Keys.NoEvent;
      minCutoff := Keys.InitialCutoff;
      beta := Keys.InitialBeta;
      plotbuf := [];
      rawdata := [];
      waitRise := true;
      touch := false;
      touchcount := 0;
      printed := false;
      count := 0;
    }

    /** One iteration of `read_data`'s loop body, on the line `r` read from the port. */
    method ReadSample(r: Reading) returns (o: Outcome)
      requires Valid()
      modifies this
      ensures Valid()
      ensures (State(), o) == SampleStep(Settings(), filterflag, old(State()), r)
      ensures ControlState() == old(ControlState())
    {
      var line := Strip(r.line);
      if line == [] {
        return Blank;
      }
      var parsed := ParseInt(line);
      if parsed.None? {
        return BadLine(line);
      }
      o := AcceptSample(Convert(Settings(), parsed.value), r.filtered);
    }

    /** An accepted sample: `data` is the converted value, `fdata` the filter's output for it. */
    method AcceptSample(data: real, fdata: real) returns (o: Outcome)
      requires Valid()
      modifies this
      ensures Valid()
      ensures (State(), o) == Accept(Settings(), filterflag, old(State()), data, fdata)
      ensures ControlState() == old(ControlState())
    {
      ghost var s0 := State();
      rawdata := Append(rawdata, data, bufsize);
      if filterflag {
        plotbuf := Append(plotbuf, fdata, bufsize);
      } else {
        plotbuf := Append(plotbuf, data, bufsize);
      }
      var transition := Steady;
      var report := Silent;
      if |plotbuf| > DiffSamps {
        transition, report := DetectSample(data);
      }
      assert (Detector(), transition, report) ==
        if |plotbuf| > DiffSamps then DetectStep(s0.detector, data, plotbuf) else (s0.detector, Steady, Silent);
      var tick := TickHz();
      o := Processed(transition, report, tick);
    }

    /** The Hz counter: `tick` is whether the rate line is printed on this sample. */
    method TickHz() returns (tick: bool)
      requires Valid()
      modifies this
      ensures Valid()
      ensures (count, tick) == HzStep(Settings(), old(count))
      ensures plotbuf == old(plotbuf) && rawdata == old(rawdata) && Detector() == old(Detector())
      ensures ControlState() == old(ControlState())
    {
      tick := false;
      if printHz {
        count := count + 1;
        if count == bufsize / 4 {
          tick := true;
          count := 0;
        }
      }
    }

    function Detector(): DetectorState
      reads this
    {
      DetectorState(waitRise, touch, touchcount, printed)
    }

    /** The hysteresis test and the dwell counter, once the plot buffer is past warm-up. */
    method DetectSample(data: real) returns (transition: Transition, report: Report)
      requires |plotbuf| > DiffSamps
      modifies this
      ensures plotbuf == old(plotbuf) && rawdata == old(rawdata) && count == old(count)
      ensures (Detector(), transition, report) == DetectStep(old(Detector()), data, plotbuf)
      ensures ControlState() == old(ControlState())
    {
      var ddiff := data - plotbuf[|plotbuf| - DiffSamps];
      var window := Window(plotbuf);
      transition := Steady;
      if waitRise && StdAbove(window) {
        waitRise := false;
        transition := Rise;
      } else if !waitRise && StdBelow(window) {
        printed := false;
        waitRise := true;
        touch := ddiff > 0.0;
        transition := Fall(touch);
      }
      report := Silent;
      if touch {
        touchcount := touchcount + 1;
        if touchcount > TouchThresh && !printed {
          report := Classify(BaselineWindow(plotbuf), TouchWindow(plotbuf));
          printed := true;
        }
      } else {
        touchcount := 0;
        if !printed {
          report := NoTouch;
        }
        printed := true;
      }
    }

    /** `keyPressEvent` for a key with code `key` and text `text`. */
    method KeyPress(key: int, text: string)
      modifies this
      ensures ControlState() == Keys.KeyPress(old(ControlState()), key, text)
      ensures State() == old(State())
    {
      if key == Keys.EscapeKey {
        run := false;
      } else if Keys.Contains(Keys.TuningKeys, text) {
        if text == "," {
          minCutoff := minCutoff - Keys.CutoffStep;
        } else if text == "." {
          minCutoff := minCutoff + Keys.CutoffStep;
        } else if text == "[" {
          beta := beta - Keys.BetaStep;
        } else if text == "]" {
          beta := beta + Keys.BetaStep;
        }
      } else if text == "/" {
        filterflag := !filterflag;
      } else if text == "-" {
        // redraws the baseline marker only
      } else {
        event := Keys.Tag(text);
      }
    }

    /** `keyReleaseEvent`. */
    method KeyRelease()
      modifies this
      ensures ControlState() == Keys.KeyRelease(old(ControlState()))
      ensures State() == old(State())
    {
      event := Keys.NoEvent;
    }

    /**
     * `read_data`: restart the counter and the rise test, then loop while
     * `run` holds, handling key events while awaiting each line.
     */
    method ReadData(ins: seq<Input>) returns (outs: seq<Outcome>)
      requires Valid()
      modifies this
      ensures Valid()
      ensures (ControlState(), State(), outs) ==
        Session(Settings(), old(ControlState()), Restarted(old(State())), ins, 0)
    {
      count := 0;
      waitRise := true;
      assert State() == Restarted(old(State()));
      ghost var total := Session(Settings(), ControlState(), State(), ins, 0);
      outs := [];
      var i := 0;
      assert total.2 == outs + total.2;
      while run
        invariant Valid() && i <= |ins|
        invariant total == (var t := Session(Settings(), ControlState(), State(), ins, i); (t.0, t.1, outs + t.2))
        decreases |ins| - i
      {
        // await the next line, handling key events meanwhile
        while i < |ins| && !ins[i].Line?
          invariant Valid() && i <= |ins|
          invariant total == (var t := Await(Settings(), ControlState(), State(), ins, i); (t.0, t.1, outs + t.2))
          decreases |ins| - i
        {
          if ins[i].Press? {
            KeyPress(ins[i].key, ins[i].text);
          } else {
            KeyRelease();
          }
          i := i + 1;
        }
        if i == |ins| {
          break;
        }
        ghost var c := ControlState();
        ghost var st := State();
        var o := ReadSample(ins[i].reading);
        ghost var rest := Session(Settings(), c, State(), ins, i + 1);
        assert Await(Settings(), c, st, ins, i) == (rest.0, rest.1, [o] + rest.2) by {
          if !c.run {
            assert [o] + [] == [o];
          }
        }
        ConcatAssoc(outs, [o], rest.2);
        outs := outs + [o];
        i := i + 1;
      }
      assert outs + [] == outs;
    }
  }
}

=== FILE: keys.dfy ===
/**
 * The key handlers of the plot window: Escape stops the ingestion loop,
 * `,` `.` `[` `]` nudge the smoothing filter's cutoff and beta, `/` toggles
 * filtering, `-` redraws the baseline, and any other text becomes the manual
 * event tag that the next log records carry until the key is released.
 */
module Keys {

  /** Qt's key code for Escape. */
  const EscapeKey: int := 16777216
  const CutoffStep: real := 0.01
  const BetaStep: real := 0.01
  /** Initial min-cutoff and beta of the smoothing filter. */
  const InitialCutoff: real := 0.25
  const InitialBeta: real := 0.1

  /** `self.event`: the integer 0, or the text of the last unrecognised key. */
  datatype EventTag = NoEvent | Tag(text: string)

  /** The state the key handlers change. */
  datatype Controls = Controls(run: bool, filterflag: bool, event: EventTag, minCutoff: real, beta: real)

  const InitialControls: Controls := Controls(true, true, NoEvent, InitialCutoff, InitialBeta)

  /** Python's `needle in hay` on strings: `needle` is a contiguous substring of `hay`. */
  predicate Contains(hay: string, needle: string)
    decreases |hay|
  {
    (|needle| <= |hay| && hay[..|needle|] == needle) || (|hay| > 0 && Contains(hay[1..], needle))
  }

  /** The texts handled by the filter-tuning branch. */
  const TuningKeys: string := "[],."

  /** `keyPressEvent`: the new controls after a key with code `key` and text `text`. */
  function KeyPress(c: Controls, key: int, text: string): (r: Controls)
    // only Escape stops the loop
    ensures r.run <==> c.run && key != EscapeKey
    // a key press changes at most one control
    ensures || r.(run := c.run) == c
            || r.(minCutoff := c.minCutoff) == c
            || r.(beta := c.beta) == c
            || r.(filterflag := c.filterflag) == c
            || r.(event := c.event) == c
  {
    if key == EscapeKey then c.(run := false)
    else if Contains(TuningKeys, text) then
      if text == "," then c.(minCutoff := c.minCutoff - CutoffStep)
      else if text == "." then c.(minCutoff := c.minCutoff + CutoffStep)
      else if text == "[" then c.(beta := c.beta - BetaStep)
      else if text == "]" then c.(beta := c.beta + BetaStep)
      else c
    else if text == "/" then c.(filterflag := !c.filterflag)
    else if text == "-" then c
    else c.(event := Tag(text))
  }

  /** `keyReleaseEvent`: the event tag goes back to 0. */
  function KeyRelease(c: Controls): (r: Controls)
    ensures r.event == NoEvent
    ensures r.(event := c.event) == c
  {
    c.(event := NoEvent)
  }

  /** A substring of "[],." is one of these eleven texts, and each of them is one. */
  lemma {:induction false} TuningKeyTexts(text: string)
    ensures Contains(TuningKeys, text) <==>
      text in {"", "[", "]", ",", ".", "[]", "],", ",.", "[],", "],.", "[],."}
  {
    var h := TuningKeys;
    assert h[1..] == "],." && h[2..] == ",." && h[3..] == "." && h[4..] == "";
    assert Contains(h, text) <==>
      (|text| <= 4 && h[..|text|] == text) || Contains(h[1..], text);
    assert Contains(h[1..], text) <==>
      (|text| <= 3 && h[1..][..|text|] == text) || Contains(h[2..], text);
    assert Contains(h[2..], text) <==>
      (|text| <= 2 && h[2..][..|text|] == text) || Contains(h[3..], text);
    assert Contains(h[3..], text) <==>
      (|text| <= 1 && h[3..][..|text|] == text) || Contains(h[4..], text);
    assert Contains(h[4..], text) <==> text == "";
    var n := |text|;
    if n == 1 {
      assert h[..1] == "[" && h[1..][..1] == "]" && h[2..][..1] == "," && h[3..][..1] == ".";
    } else if n == 2 {
      assert h[..2] == "[]" && h[1..][..2] == "]," && h[2..][..2] == ",.";
    } else if n == 3 {
      assert h[..3] == "[]," && h[1..][..3] == "],.";
    } else if n == 4 {
      assert h[..4] == "[],.";
    }
  }

  /** Escape stops the loop and changes nothing else, whatever its text. */
  lemma EscapeStops(c: Controls, text: string)
    ensures KeyPress(c, EscapeKey, text) == c.(run := false)
  {
  }

  /** An empty key text, or a longer piece of "[],." such as "[]", changes nothing. */
  lemma TuningBranchWithoutStep(c: Controls, key: int, text: string)
    requires key != EscapeKey
    requires text in {"", "[]", "],", ",.", "[],", "],.", "[],."}
    ensures KeyPress(c, key, text) == c
  {
    TuningKeyTexts(text);
  }

  /** `,` and `.` move the cutoff by one step each way, leaving beta and the rest alone. */
  lemma CutoffNudges(c: Controls, key: int)
    requires key != EscapeKey
    ensures KeyPress(c, key, ",") == c.(minCutoff := c.minCutoff - CutoffStep)
    ensures KeyPress(c, key, ".") == c.(minCutoff := c.minCutoff + CutoffStep)
    ensures KeyPress(KeyPress(c, key, ","), key, ".") == c
  {
    TuningKeyTexts(",");
    TuningKeyTexts(".");
  }

  /** `[` and `]` move beta by one step each way, leaving the cutoff and the rest alone. */
  lemma BetaNudges(c: Controls, key: int)
    requires key != EscapeKey
    ensures KeyPress(c, key, "[") == c.(beta := c.beta - BetaStep)
    ensures KeyPress(c, key, "]") == c.(beta := c.beta + BetaStep)
    ensures KeyPress(KeyPress(c, key, "]"), key, "[") == c
  {
    TuningKeyTexts("[");
    TuningKeyTexts("]");
  }

  /** `/` toggles filtering; pressing it twice restores every control. */
  lemma FilterToggleTwice(c: Controls, key: int)
    requires key != EscapeKey
    ensures KeyPress(c, key, "/").filterflag == !c.filterflag
    ensures KeyPress(KeyPress(c, key, "/"), key, "/") == c
  {
    TuningKeyTexts("/");
  }

  /**
   * Any other text becomes the event tag and changes nothing else; releasing
   * the key clears the tag again.
   */
  lemma OtherTextTagsEvent(c: Controls, key: int, text: string)
    requires key != EscapeKey && !Contains(TuningKeys, text) && text != "/" && text != "-"
    ensures KeyPress(c, key, text) == c.(event := Tag(text))
    ensures KeyRelease(KeyPress(c, key, text)) == c.(event := NoEvent)
  {
  }
}

=== FILE: parsing.dfy ===
/**
 * Line intake: the serial reader hands over one line of bytes at a time; the
 * ingestion loop strips surrounding ASCII whitespace and parses what is left
 * with Python's `int`. Bytes are modelled as `char`s in the ASCII range.
 */
module Parsing {

  datatype Option<T> = None | Some(value: T)

  /** The bytes that `bytes.strip()` removes: space and \t \n \x0b \x0c \r. */
  predicate IsSpace(c: char) {
    c == ' ' || ('\t' <= c <= '\r')
  }

  /** Index of the first byte of `s` at or after `i` that is not whitespace (`|s|` if none). */
  function SkipSpaces(s: string, i: nat): (n: nat)
    requires i <= |s|
    ensures i <= n <= |s|
    decreases |s| - i
  {
    if i < |s| && IsSpace(s[i]) then SkipSpaces(s, i + 1) else i
  }

  /** SkipSpaces stops at the first byte that is not whitespace. */
  lemma {:induction false} SkipSpacesStops(s: string, i: nat)
    requires i <= |s|
    ensures forall k :: i <= k < SkipSpaces(s, i) ==> IsSpace(s[k])
    ensures SkipSpaces(s, i) == |s| || !IsSpace(s[SkipSpaces(s, i)])
    decreases |s| - i
  {
    if i < |s| && IsSpace(s[i]) {
      SkipSpacesStops(s, i + 1);
    }
  }

  /** Index just past the last byte of `s[lo..j]` that is not whitespace (`lo` if none). */
  function TrimEnd(s: string, lo: nat, j: nat): (n: nat)
    requires lo <= j <= |s|
    ensures lo <= n <= j
    decreases j
  {
    if j > lo && IsSpace(s[j - 1]) then TrimEnd(s, lo, j - 1) else j
  }

  /** TrimEnd stops just past the last byte that is not whitespace. */
  lemma {:induction false} TrimEndStops(s: string, lo: nat, j: nat)
    requires lo <= j <= |s|
    ensures forall k :: TrimEnd(s, lo, j) <= k < j ==> IsSpace(s[k])
    ensures TrimEnd(s, lo, j) == lo || !IsSpace(s[TrimEnd(s, lo, j) - 1])
    decreases j
  {
    if j > lo && IsSpace(s[j - 1]) {
      TrimEndStops(s, lo, j - 1);
    }
  }

  /** `line.strip()`. */
  function Strip(s: string): (r: string)
    ensures |r| <= |s|
    ensures r == [] || (!IsSpace(r[0]) && !IsSpace(r[|r| - 1]))
  {
    var lo := SkipSpaces(s, 0);
    SkipSpacesStops(s, 0);
    TrimEndStops(s, lo, |s|);
    s[lo..TrimEnd(s, lo, |s|)]
  }

  /**
   * `strip()` removes whitespace only, and all of it at both ends: the result
   * is a slice of the line, everything outside it is whitespace, and it
   * neither starts nor ends with whitespace.
   */
  lemma StripTrims(s: string)
    ensures exists lo, hi ::
              && 0 <= lo <= hi <= |s| && Strip(s) == s[lo..hi]
              && (forall k :: 0 <= k < lo ==> IsSpace(s[k]))
              && (forall k :: hi <= k < |s| ==> IsSpace(s[k]))
    ensures Strip(s) == [] || (!IsSpace(Strip(s)[0]) && !IsSpace(Strip(s)[|Strip(s)| - 1]))
  {
    var lo := SkipSpaces(s, 0);
    var hi := TrimEnd(s, lo, |s|);
    SkipSpacesStops(s, 0);
    TrimEndStops(s, lo, |s|);
    assert Strip(s) == s[lo..hi];
    if lo < hi {
      assert Strip(s)[0] == s[lo] && Strip(s)[hi - lo - 1] == s[hi - 1];
    }
  }

  /** A line strips to nothing exactly when it is all whitespace. */
  lemma StripEmpty(s: string)
    ensures Strip(s) == [] <==> forall k :: 0 <= k < |s| ==> IsSpace(s[k])
  {
    var lo := SkipSpaces(s, 0);
    SkipSpacesStops(s, 0);
    if lo < |s| {
      TrimEndStops(s, lo, |s|);
      assert TrimEnd(s, lo, |s|) > lo;
    }
  }

  predicate IsDigit(c: char) {
    '0' <= c <= '9'
  }

  function DigitValue(c: char): (d: nat)
    requires IsDigit(c)
    ensures d < 10
  {
    c as int - '0' as int
  }

  function DigitChar(d: nat): (c: char)
    requires d < 10
    ensures IsDigit(c) && DigitValue(c) == d
  {
    ('0' as int + d) as char
  }

  /**
   * `s[a..]` is a digit part `int` accepts: digits, with single underscores
   * allowed between two digits (leading zeros are accepted by `int`).
   */
  predicate DigitsFrom(s: string, a: nat) {
    && a < |s|
    && IsDigit(s[a])
    && IsDigit(s[|s| - 1])
    && (forall k :: a <= k < |s| ==> IsDigit(s[k]) || s[k] == '_')
    && (forall k :: a <= k < |s| - 1 ==> s[k] != '_' || s[k + 1] != '_')
  }

  /** Decimal value of the digits of `s[a..n]`, underscores ignored. */
  function ValueOf(s: string, a: nat, n: nat): nat
    requires a <= n <= |s|
    requires forall k :: a <= k < n ==> IsDigit(s[k]) || s[k] == '_'
    decreases n - a
  {
    if n == a then 0
    else if s[n - 1] == '_' then ValueOf(s, a, n - 1)
    else 10 * ValueOf(s, a, n - 1) + DigitValue(s[n - 1])
  }

  /** Python's `int(line)` on an already stripped line; `None` is the ValueError. */
  function ParseInt(s: string): (r: Option<int>)
    // an accepted line ends in a digit, and the value has the sign written in front of it
    ensures r.Some? ==> |s| > 0 && IsDigit(s[|s| - 1])
    ensures r.Some? && s[0] == '-' ==> r.value <= 0
    ensures r.Some? && s[0] != '-' ==> r.value >= 0
  {
    if |s| > 0 && (s[0] == '+' || s[0] == '-') then
      if DigitsFrom(s, 1) then
        var v: int := ValueOf(s, 1, |s|);
        Some(if s[0] == '-' then -v else v)
      else None
    else if DigitsFrom(s, 0) then Some(ValueOf(s, 0, |s|))
    else None
  }

  /** Canonical decimal rendering of a natural number. */
  function RenderNat(n: nat): (s: string)
    ensures |s| > 0
    ensures forall k :: 0 <= k < |s| ==> IsDigit(s[k])
  {
    if n < 10 then [DigitChar(n)] else RenderNat(n / 10) + [DigitChar(n % 10)]
  }

  /** Decimal rendering of an integer, with a leading minus when negative. */
  function Render(n: int): string {
    if n < 0 then "-" + RenderNat(-n) else RenderNat(n)
  }

  /** The value of a digit run depends only on its characters, not on where it sits. */
  lemma {:induction false} ValueOfShift(s: string, a: nat, t: string, b: nat, len: nat)
    requires a + len <= |s| && b + len <= |t|
    requires forall k :: a <= k < a + len ==> s[k] == t[k - a + b]
    requires forall k :: a <= k < a + len ==> IsDigit(s[k]) || s[k] == '_'
    ensures forall k :: b <= k < b + len ==> IsDigit(t[k]) || t[k] == '_'
    ensures ValueOf(s, a, a + len) == ValueOf(t, b, b + len)
    decreases len
  {
    forall k | b <= k < b + len
      ensures IsDigit(t[k]) || t[k] == '_'
    {
      var i := k - b + a;
      assert s[i] == t[i - a + b];
    }
    if len > 0 {
      var i := a + len - 1;
      assert s[i] == t[i - a + b];
      ValueOfShift(s, a, t, b, len - 1);
    }
  }

  lemma {:induction false} RenderNatValue(n: nat)
    ensures DigitsFrom(RenderNat(n), 0)
    ensures ValueOf(RenderNat(n), 0, |RenderNat(n)|) == n
  {
    var s := RenderNat(n);
    if n >= 10 {
      var t := RenderNat(n / 10);
      RenderNatValue(n / 10);
      assert s == t + [DigitChar(n % 10)];
      ValueOfShift(s, 0, t, 0, |t|);
    }
  }

  /** Every integer written in decimal is read back unchanged. */
  lemma ParseRenderRoundTrip(n: int)
    ensures ParseInt(Render(n)) == Some(n)
  {
    if n < 0 {
      NegativeRoundTrip(-n);
    } else {
      NaturalRoundTrip(n);
    }
  }

  lemma NaturalRoundTrip(m: nat)
    ensures ParseInt(RenderNat(m)) == Some(m)
  {
    var s := RenderNat(m);
    RenderNatValue(m);
    assert IsDigit(s[0]);
  }

  lemma NegativeRoundTrip(m: nat)
    ensures ParseInt("-" + RenderNat(m)) == Some(-(m as int))
  {
    RenderNatValue(m);
    SignedDigits(RenderNat(m));
  }

  /** A minus sign in front of a digit part leaves its digits and their value alone. */
  lemma SignedDigits(t: string)
    requires DigitsFrom(t, 0)
    ensures DigitsFrom("-" + t, 1)
    ensures ValueOf("-" + t, 1, |t| + 1) == ValueOf(t, 0, |t|)
  {
    ValueOfShift(t, 0, "-" + t, 1, |t|);
  }

  /** A line holding any byte other than a digit, `_`, `+` or `-` is rejected. */
  lemma ParseRejectsForeignByte(s: string, k: nat)
    requires k < |s| && !IsDigit(s[k]) && s[k] != '_' && s[k] != '+' && s[k] != '-'
    ensures ParseInt(s) == None
  {
  }

  /**
   * An accepted line is an optional sign, then digits with single underscores
   * only between two digits.
   */
  lemma ParseAcceptsOnlyNumerals(s: string)
    requires ParseInt(s).Some?
    ensures |s| > 0 && (IsDigit(s[0]) || s[0] == '+' || s[0] == '-')
    ensures forall k :: 0 < k < |s| ==> IsDigit(s[k]) || s[k] == '_'
    ensures forall k :: 0 < k < |s| - 1 ==> s[k] != '_' || s[k + 1] != '_'
    ensures IsDigit(s[|s| - 1])
    ensures (s[0] == '+' || s[0] == '-') ==> |s| > 1 && IsDigit(s[1])
  {
  }
}

=== FILE: pipeline.dfy ===
/**
 * The per-sample body of the ingestion loop as a function of the state it
 * updates: line guard, conversion, the two bounded buffers, the detector
 * (after warm-up) and the Hz counter; and a run of the loop over a sequence
 * of lines, with the properties that hold across samples.
 */
module Pipeline {
  import opened Parsing
  import opened Conversions
  import opened Buffers
  import opened Detection

  /** The constructor options the loop reads. */
  datatype Config = Config(bufsize: nat, convertPressure: bool, pMin: real, pMax: real, printHz: bool)

  /** One line from the serial port, and the value the smoothing filter returns for it. */
  datatype Reading = Reading(line: string, filtered: real)

  /** A line as the loop takes it: the reading, and the filter flag in force at that moment. */
  datatype Feed = Feed(reading: Reading, filterflag: bool)

  /** `plotbuf`, `rawdata`, the detector fields and the Hz counter `count`. */
  datatype Samples = Samples(plotbuf: seq<real>, rawdata: seq<real>, detector: DetectorState, count: nat)

  /** What one iteration of the loop did. */
  datatype Outcome =
    | Blank                        // empty line, skipped silently
    | BadLine(text: string)        // "Bad line" written to stderr, skipped
    | Processed(transition: Transition, report: Report, hzTick: bool)

  const InitialSamples: Samples := Samples([], [], InitialDetector, 0)

  /** Samples between two Hz lines: `bufsize // 4`. */
  function HzPeriod(cfg: Config): nat {
    cfg.bufsize / 4
  }

  /** The deques never exceed their capacity, and the counter stays below its period. */
  predicate WellFormed(cfg: Config, s: Samples) {
    && |s.plotbuf| <= cfg.bufsize
    && |s.rawdata| <= cfg.bufsize
    && (HzPeriod(cfg) > 0 ==> s.count < HzPeriod(cfg))
  }

  /** The stripped line as `int` reads it, or None when the loop skips it. */
  function ParseLine(line: string): Option<int> {
    var stripped := Strip(line);
    if stripped == [] then None else ParseInt(stripped)
  }

  /** `data`: the count itself, or hectopascals when conversion is on. */
  function Convert(cfg: Config, sensorcount: int): (data: real)
    ensures !cfg.convertPressure ==> data == sensorcount as real
    ensures cfg.convertPressure ==> data == RawPressureToHPA(sensorcount, cfg.pMin, cfg.pMax, HectopascalsPerPsi)
    // with conversion on, the bottom of the calibrated span reads 0 hPa
    ensures cfg.convertPressure && sensorcount == RawLow ==> data == 0.0
  {
    if cfg.convertPressure then RawPressureToHPA(sensorcount, cfg.pMin, cfg.pMax, HectopascalsPerPsi)
    else sensorcount as real
  }

  /** `x % q` by repeated subtraction (WrapIsMod). */
  function Wrap(x: nat, q: nat): (r: nat)
    requires q > 0
    ensures r < q
    decreases x
  {
    if x < q then x else Wrap(x - q, q)
  }

  /** The Hz counter: counts accepted samples and wraps to 0 on reaching `bufsize // 4`. */
  function HzStep(cfg: Config, count: nat): (r: (nat, bool))
    ensures !cfg.printHz ==> r == (count, false)
    // a tick is printed, and the counter restarts, exactly when it reaches the period
    ensures cfg.printHz && HzPeriod(cfg) > 0 ==>
      (r.1 <==> count + 1 == HzPeriod(cfg)) && r.0 == (if r.1 then 0 else count + 1)
    ensures cfg.printHz && HzPeriod(cfg) == 0 ==> r == (count + 1, false)
  {
    if cfg.printHz then
      var c := count + 1;
      if c == HzPeriod(cfg) then (0, true) else (c, false)
    else (count, false)
  }

  /** An accepted sample: both appends, the detector after warm-up, the Hz counter. */
  function Accept(cfg: Config, filterflag: bool, s: Samples, data: real, fdata: real): (t: (Samples, Outcome))
    requires WellFormed(cfg, s)
    ensures WellFormed(cfg, t.0) && t.1.Processed?
    ensures |t.0.rawdata| == if |s.rawdata| < cfg.bufsize then |s.rawdata| + 1 else cfg.bufsize
    ensures |t.0.plotbuf| == if |s.plotbuf| < cfg.bufsize then |s.plotbuf| + 1 else cfg.bufsize
    // the newest value of each deque is this sample's
    ensures cfg.bufsize > 0 ==> t.0.rawdata[|t.0.rawdata| - 1] == data
    ensures cfg.bufsize > 0 ==> t.0.plotbuf[|t.0.plotbuf| - 1] == if filterflag then fdata else data
  {
    var rawdata := Append(s.rawdata, data, cfg.bufsize);
    var plotbuf := Append(s.plotbuf, if filterflag then fdata else data, cfg.bufsize);
    var (detector, transition, report) :=
      if |plotbuf| > DiffSamps then DetectStep(s.detector, data, plotbuf)
      else (s.detector, Steady, Silent);
    var (count, tick) := HzStep(cfg, s.count);
    (Samples(plotbuf, rawdata, detector, count), Processed(transition, report, tick))
  }

  /**
   * One iteration of `read_data`'s loop; `filterflag` is the flag in force
   * for this sample.
   */
  function SampleStep(cfg: Config, filterflag: bool, s: Samples, r: Reading): (t: (Samples, Outcome))
    requires WellFormed(cfg, s)
    ensures WellFormed(cfg, t.0)
    // the guard: blank and unparsable lines change nothing
    ensures !t.1.Processed? ==> t.0 == s
    ensures t.1.Processed? <==> ParseLine(r.line).Some?
  {
    var line := Strip(r.line);
    if line == [] then (s, Blank)
    else match ParseInt(line)
      case None => (s, BadLine(line))
      case Some(sensorcount) => Accept(cfg, filterflag, s, Convert(cfg, sensorcount), r.filtered)
  }

  /**
   * An accepted line appends its value to `rawdata` and the filtered or raw
   * value to `plotbuf`: each new value is last, the older ones keep their
   * order, and the oldest is dropped only when the deque was full.
   */
  lemma StepAppends(cfg: Config, filterflag: bool, s: Samples, r: Reading)
    requires WellFormed(cfg, s) && ParseLine(r.line).Some? && cfg.bufsize > 0
    ensures var s1 := SampleStep(cfg, filterflag, s, r).0;
      var data := Convert(cfg, ParseLine(r.line).value);
      var x := if filterflag then r.filtered else data;
      && (|s.rawdata| < cfg.bufsize ==> s1.rawdata == s.rawdata + [data])
      && (|s.rawdata| == cfg.bufsize ==> s1.rawdata == s.rawdata[1..] + [data])
      && (|s.plotbuf| < cfg.bufsize ==> s1.plotbuf == s.plotbuf + [x])
      && (|s.plotbuf| == cfg.bufsize ==> s1.plotbuf == s.plotbuf[1..] + [x])
  {
    var data := Convert(cfg, ParseLine(r.line).value);
    AppendKeepsNewest(s.rawdata, data, cfg.bufsize);
    AppendKeepsNewest(s.plotbuf, if filterflag then r.filtered else data, cfg.bufsize);
  }

  /** A deque of capacity 0 stays empty. */
  lemma ZeroCapacityStaysEmpty(cfg: Config, filterflag: bool, s: Samples, r: Reading)
    requires WellFormed(cfg, s) && cfg.bufsize == 0
    ensures SampleStep(cfg, filterflag, s, r).0.rawdata == [] && SampleStep(cfg, filterflag, s, r).0.plotbuf == []
  {
  }

  /**
   * Until the plot buffer holds more than DiffSamps values the detector is
   * idle: it keeps its state and reports nothing.
   */
  lemma WarmUpIdle(cfg: Config, filterflag: bool, s: Samples, r: Reading)
    requires WellFormed(cfg, s)
    ensures var (s1, o) := SampleStep(cfg, filterflag, s, r);
      |s1.plotbuf| <= DiffSamps ==> s1.detector == s.detector && !IsFall(o) && !IsReport(o)
  {
  }

  /**
   * A line that strips to nothing is skipped silently; a non-empty line that
   * `int` rejects is reported as a bad line and skipped.
   */
  lemma LineGuard(cfg: Config, filterflag: bool, s: Samples, r: Reading)
    requires WellFormed(cfg, s)
    ensures SampleStep(cfg, filterflag, s, r).1 == Blank <==> Strip(r.line) == []
    ensures SampleStep(cfg, filterflag, s, r).1.BadLine? <==>
      Strip(r.line) != [] && ParseInt(Strip(r.line)) == None
    ensures SampleStep(cfg, filterflag, s, r).1.BadLine? ==>
      SampleStep(cfg, filterflag, s, r).1.text == Strip(r.line)
  {
  }

  /**
   * The loop over the lines `rs`, in order; each line is processed with the
   * filter flag in force when it arrives.
   */
  function Run(cfg: Config, s: Samples, rs: seq<Feed>): (t: (Samples, seq<Outcome>))
    requires WellFormed(cfg, s)
    ensures WellFormed(cfg, t.0) && |t.1| == |rs|
    decreases |rs|
  {
    if rs == [] then (s, [])
    else
      var (s1, outs) := Run(cfg, s, rs[..|rs| - 1]);
      var (s2, o) := SampleStep(cfg, rs[|rs| - 1].filterflag, s1, rs[|rs| - 1].reading);
      (s2, outs + [o])
  }

  /** The loop seen from its first line: that line's step, then the run of the rest. */
  lemma {:induction false} RunCons(cfg: Config, s: Samples, rs: seq<Feed>)
    requires WellFormed(cfg, s) && rs != []
    ensures var (s1, o) := SampleStep(cfg, rs[0].filterflag, s, rs[0].reading);
      Run(cfg, s, rs) == (Run(cfg, s1, rs[1..]).0, [o] + Run(cfg, s1, rs[1..]).1)
    decreases |rs|
  {
    var (s1, o) := SampleStep(cfg, rs[0].filterflag, s, rs[0].reading);
    RunSnoc(cfg, s, rs);
    if |rs| == 1 {
      assert rs[..0] == [] && rs[1..] == [];
      assert [] + [o] == [o] + [];
    } else {
      var init := rs[..|rs| - 1];
      var tail := rs[1..];
      SliceSwap(rs);
      RunCons(cfg, s, init);
      RunSnoc(cfg, s1, tail);
      var (m, outs) := Run(cfg, s1, init[1..]);
      var o2 := SampleStep(cfg, rs[|rs| - 1].filterflag, m, rs[|rs| - 1].reading).1;
      ConcatAssoc([o], outs, [o2]);
    }
  }

  /** The loop seen from its last line: the run of the others, then that line's step. */
  lemma RunSnoc(cfg: Config, s: Samples, rs: seq<Feed>)
    requires WellFormed(cfg, s) && rs != []
    ensures var (s1, outs) := Run(cfg, s, rs[..|rs| - 1]);
      var (s2, o) := SampleStep(cfg, rs[|rs| - 1].filterflag, s1, rs[|rs| - 1].reading);
      Run(cfg, s, rs) == (s2, outs + [o])
  {
  }

  /** Dropping the first and the last element commute. */
  lemma SliceSwap<T>(rs: seq<T>)
    requires |rs| >= 2
    ensures rs[..|rs| - 1][0] == rs[0]
    ensures rs[..|rs| - 1][1..] == rs[1..][..|rs| - 2]
    ensures rs[1..][|rs| - 2] == rs[|rs| - 1]
  {
  }

  /** What one line adds to `rawdata`: its value if it is accepted. */
  function RawOf(cfg: Config, r: Reading): seq<real> {
    match ParseLine(r.line)
    case Some(n) => [Convert(cfg, n)]
    case None => []
  }

  /** What one line adds to `plotbuf`: the filtered or the raw value if it is accepted. */
  function PlotOf(cfg: Config, filterflag: bool, r: Reading): seq<real> {
    match ParseLine(r.line)
    case Some(n) => [if filterflag then r.filtered else Convert(cfg, n)]
    case None => []
  }

  /** The values of the accepted lines of `rs`, in order. */
  function Accepted(cfg: Config, rs: seq<Feed>): seq<real> {
    if rs == [] then [] else Accepted(cfg, rs[..|rs| - 1]) + RawOf(cfg, rs[|rs| - 1].reading)
  }

  /** How many lines of `rs` are accepted. */
  function AcceptedCount(rs: seq<Feed>): nat {
    if rs == [] then 0 else AcceptedCount(rs[..|rs| - 1]) + if ParseLine(rs[|rs| - 1].reading.line).Some? then 1 else 0
  }

  /** AcceptedCount counts the values Accepted collects. */
  lemma {:induction false} AcceptedCountIsLength(cfg: Config, rs: seq<Feed>)
    ensures AcceptedCount(rs) == |Accepted(cfg, rs)|
    decreases |rs|
  {
    if rs != [] {
      AcceptedCountIsLength(cfg, rs[..|rs| - 1]);
    }
  }

  /** What the accepted lines of `rs` put in the plot buffer. */
  function Plotted(cfg: Config, rs: seq<Feed>): seq<real> {
    if rs == [] then [] else Plotted(cfg, rs[..|rs| - 1]) + PlotOf(cfg, rs[|rs| - 1].filterflag, rs[|rs| - 1].reading)
  }

  /**
   * After any run both buffers hold exactly the newest `bufsize` values they
   * were given, in arrival order; skipped lines leave no trace.
   */
  lemma {:induction false} RunKeepsNewestValues(cfg: Config, s: Samples, rs: seq<Feed>)
    requires WellFormed(cfg, s)
    ensures Run(cfg, s, rs).0.rawdata == LastN(s.rawdata + Accepted(cfg, rs), cfg.bufsize)
    ensures Run(cfg, s, rs).0.plotbuf == LastN(s.plotbuf + Plotted(cfg, rs), cfg.bufsize)
    decreases |rs|
  {
    if rs == [] {
      assert s.rawdata + [] == s.rawdata && s.plotbuf + [] == s.plotbuf;
    } else {
      var init := rs[..|rs| - 1];
      var f := rs[|rs| - 1];
      var r := f.reading;
      RunKeepsNewestValues(cfg, s, init);
      var s1 := Run(cfg, s, init).0;
      assert Run(cfg, s, rs).0 == SampleStep(cfg, f.filterflag, s1, r).0;
      var raw := Accepted(cfg, init);
      var plot := Plotted(cfg, init);
      StepKeepsNewestRaw(cfg, f.filterflag, s1, r, s.rawdata, raw);
      StepKeepsNewestPlotted(cfg, f.filterflag, s1, r, s.plotbuf, plot);
      assert Accepted(cfg, rs) == raw + RawOf(cfg, r);
      assert Plotted(cfg, rs) == plot + PlotOf(cfg, f.filterflag, r);
      ConcatAssoc(s.rawdata, raw, RawOf(cfg, r));
      ConcatAssoc(s.plotbuf, plot, PlotOf(cfg, f.filterflag, r));
    }
  }

  /** The newest-values property of `rawdata`, carried across one iteration. */
  lemma StepKeepsNewestRaw(cfg: Config, filterflag: bool, s: Samples, r: Reading, old0: seq<real>, seen: seq<real>)
    requires WellFormed(cfg, s) && s.rawdata == LastN(old0 + seen, cfg.bufsize)
    ensures SampleStep(cfg, filterflag, s, r).0.rawdata == LastN(old0 + seen + RawOf(cfg, r), cfg.bufsize)
  {
    match ParseLine(r.line)
    case None =>
      assert old0 + seen + [] == old0 + seen;
    case Some(n) =>
      AppendKeepsNewest(s.rawdata, Convert(cfg, n), cfg.bufsize);
      LastNAppend(old0 + seen, Convert(cfg, n), cfg.bufsize);
  }

  /** The newest-values property of `plotbuf`, carried across one iteration. */
  lemma StepKeepsNewestPlotted(cfg: Config, filterflag: bool, s: Samples, r: Reading, old0: seq<real>, seen: seq<real>)
    requires WellFormed(cfg, s) && s.plotbuf == LastN(old0 + seen, cfg.bufsize)
    ensures SampleStep(cfg, filterflag, s, r).0.plotbuf == LastN(old0 + seen + PlotOf(cfg, filterflag, r), cfg.bufsize)
  {
    match ParseLine(r.line)
    case None =>
      assert old0 + seen + [] == old0 + seen;
    case Some(n) =>
      var x := if filterflag then r.filtered else Convert(cfg, n);
      AppendKeepsNewest(s.plotbuf, x, cfg.bufsize);
      LastNAppend(old0 + seen, x, cfg.bufsize);
  }

  /** The counter after `n` accepted samples, starting from `c`. */
  function CountAfter(cfg: Config, c: nat, n: nat): nat {
    if n == 0 then c else HzStep(cfg, CountAfter(cfg, c, n - 1)).0
  }

  /**
   * With Hz printing on and `bufsize >= 4`, the counter is the number of
   * accepted samples modulo `bufsize // 4`.
   */
  lemma RunCountsAcceptedSamples(cfg: Config, s: Samples, rs: seq<Feed>)
    requires WellFormed(cfg, s) && cfg.printHz && HzPeriod(cfg) > 0
    ensures Run(cfg, s, rs).0.count == (s.count + AcceptedCount(rs)) % HzPeriod(cfg)
  {
    RunCountsHzSteps(cfg, s, rs);
    CountAfterIsMod(cfg, s.count, AcceptedCount(rs));
  }

  lemma CountAfterIsMod(cfg: Config, c: nat, n: nat)
    requires cfg.printHz && HzPeriod(cfg) > 0 && c < HzPeriod(cfg)
    ensures CountAfter(cfg, c, n) == (c + n) % HzPeriod(cfg)
  {
    CountAfterWraps(cfg, c, n);
    WrapIsMod(c + n, HzPeriod(cfg));
  }

  /** With Hz printing on and `bufsize < 4` the counter never wraps: it counts every accepted sample. */
  lemma RunCountNeverWraps(cfg: Config, s: Samples, rs: seq<Feed>)
    requires WellFormed(cfg, s) && cfg.printHz && HzPeriod(cfg) == 0
    ensures Run(cfg, s, rs).0.count == s.count + AcceptedCount(rs)
  {
    RunCountsHzSteps(cfg, s, rs);
    CountAfterWraps(cfg, s.count, AcceptedCount(rs));
  }

  lemma {:induction false} RunCountsHzSteps(cfg: Config, s: Samples, rs: seq<Feed>)
    requires WellFormed(cfg, s)
    ensures Run(cfg, s, rs).0.count == CountAfter(cfg, s.count, AcceptedCount(rs))
    decreases |rs|
  {
    if rs != [] {
      var init := rs[..|rs| - 1];
      var f := rs[|rs| - 1];
      var r := f.reading;
      RunCountsHzSteps(cfg, s, init);
      var s1 := Run(cfg, s, init).0;
      StepCount(cfg, f.filterflag, s1, r);
      assert Run(cfg, s, rs).0 == SampleStep(cfg, f.filterflag, s1, r).0;
    }
  }

  /** One iteration advances the counter exactly when it accepts the line. */
  lemma StepCount(cfg: Config, filterflag: bool, s: Samples, r: Reading)
    requires WellFormed(cfg, s)
    ensures SampleStep(cfg, filterflag, s, r).0.count ==
      if ParseLine(r.line).Some? then HzStep(cfg, s.count).0 else s.count
  {
  }

  lemma {:induction false} CountAfterWraps(cfg: Config, c: nat, n: nat)
    requires cfg.printHz && (HzPeriod(cfg) > 0 ==> c < HzPeriod(cfg))
    ensures HzPeriod(cfg) > 0 ==> CountAfter(cfg, c, n) == Wrap(c + n, HzPeriod(cfg))
    ensures HzPeriod(cfg) == 0 ==> CountAfter(cfg, c, n) == c + n
  {
    if n > 0 {
      CountAfterWraps(cfg, c, n - 1);
      if HzPeriod(cfg) > 0 {
        WrapSuccessor(c + n - 1, HzPeriod(cfg));
      }
    }
  }

  lemma {:induction false} WrapSuccessor(a: nat, q: nat)
    requires q > 0
    ensures Wrap(Wrap(a, q) + 1, q) == Wrap(a + 1, q)
    decreases a
  {
    if a >= q {
      WrapSuccessor(a - q, q);
    }
  }

  /** Wrap is Python's (and Dafny's) `%` on naturals. */
  lemma {:induction false} WrapIsMod(x: nat, q: nat)
    requires q > 0
    ensures Wrap(x, q) == x % q
    decreases x
  {
    if x >= q {
      WrapIsMod(x - q, q);
      ModUnique(x, (x - q) / q + 1, (x - q) % q, q);
    } else {
      ModUnique(x, 0, x, q);
    }
  }

  lemma MulAtLeast(m: int, q: int)
    requires m >= 1 && q > 0
    ensures m * q >= q
  {
    assert m * q == q + (m - 1) * q;
  }

  lemma MulAtMost(m: int, q: int)
    requires m <= -1 && q > 0
    ensures m * q <= -q
  {
    assert m * q == -q + (m + 1) * q;
  }

  /** `x % q` is the remainder of any division of `x` by `q`. */
  lemma ModUnique(x: int, k: int, y: int, q: int)
    requires q > 0 && 0 <= y < q && x == k * q + y
    ensures x % q == y
  {
    var d := k - x / q;
    assert d * q == x % q - y;
    if d > 0 {
      MulAtLeast(d, q);
    } else if d < 0 {
      MulAtMost(d, q);
    }
  }

  predicate IsReport(o: Outcome) {
    o.Processed? && o.report != Silent
  }

  predicate IsFall(o: Outcome) {
    o.Processed? && o.transition.Fall?
  }

  /** A report sets `printed`; without a fall a set `printed` stays set and silences the sample. */
  lemma StepDebounce(cfg: Config, filterflag: bool, s: Samples, r: Reading)
    requires WellFormed(cfg, s)
    ensures IsReport(SampleStep(cfg, filterflag, s, r).1) ==> SampleStep(cfg, filterflag, s, r).0.detector.printed
    ensures s.detector.printed && !IsFall(SampleStep(cfg, filterflag, s, r).1) ==>
      SampleStep(cfg, filterflag, s, r).0.detector.printed && !IsReport(SampleStep(cfg, filterflag, s, r).1)
  {
    match ParseLine(r.line)
    case None =>
    case Some(n) =>
      var buf := SampleStep(cfg, filterflag, s, r).0.plotbuf;
      if |buf| > DiffSamps {
        DetectHysteresis(s.detector, Convert(cfg, n), buf);
        DetectDwell(s.detector, Convert(cfg, n), buf);
      }
  }

  /** After a report, `printed` stays set until the next fall. */
  lemma {:induction false} ReportKeepsPrinted(cfg: Config, s: Samples, rs: seq<Feed>, i: nat)
    requires WellFormed(cfg, s)
    requires i < |rs| && IsReport(Run(cfg, s, rs).1[i])
    requires forall k :: i < k < |rs| ==> !IsFall(Run(cfg, s, rs).1[k])
    ensures Run(cfg, s, rs).0.detector.printed
    decreases |rs|
  {
    var init := rs[..|rs| - 1];
    var f := rs[|rs| - 1];
    var r := f.reading;
    var (s1, outs) := Run(cfg, s, init);
    var (s2, o) := SampleStep(cfg, f.filterflag, s1, r);
    assert Run(cfg, s, rs) == (s2, outs + [o]);
    StepDebounce(cfg, f.filterflag, s1, r);
    if i < |rs| - 1 {
      assert !IsFall(o) by {
        assert (outs + [o])[|rs| - 1] == o;
      }
      forall k | i <= k < |outs|
        ensures outs[k] == Run(cfg, s, rs).1[k]
      {
        assert (outs + [o])[k] == outs[k];
      }
      ReportKeepsPrinted(cfg, s, init, i);
    } else {
      assert (outs + [o])[i] == o;
    }
  }

  /**
   * Between two reports (a "0" or a classification) there is always a fall:
   * each touch/release episode reports at most once.
   */
  lemma {:induction false} AtMostOneReportPerEpisode(cfg: Config, s: Samples, rs: seq<Feed>, i: nat, j: nat)
    requires WellFormed(cfg, s)
    requires i < j < |rs|
    requires IsReport(Run(cfg, s, rs).1[i]) && IsReport(Run(cfg, s, rs).1[j])
    ensures exists k :: i < k <= j && IsFall(Run(cfg, s, rs).1[k])
    decreases |rs|
  {
    if j < |rs| - 1 {
      var init := rs[..|rs| - 1];
      var outs := Run(cfg, s, init).1;
      OutcomesExtend(cfg, s, rs);
      assert outs[i] == Run(cfg, s, rs).1[i] && outs[j] == Run(cfg, s, rs).1[j];
      AtMostOneReportPerEpisode(cfg, s, init, i, j);
      var k :| i < k <= j && IsFall(outs[k]);
      assert outs[k] == Run(cfg, s, rs).1[k];
    } else {
      FallBeforeLastReport(cfg, s, rs, i);
    }
  }

  /** One more line leaves the earlier outcomes as they were. */
  lemma OutcomesExtend(cfg: Config, s: Samples, rs: seq<Feed>)
    requires WellFormed(cfg, s) && rs != []
    ensures forall k :: 0 <= k < |rs| - 1 ==>
      Run(cfg, s, rs).1[k] == Run(cfg, s, rs[..|rs| - 1]).1[k]
  {
    var init := rs[..|rs| - 1];
    var (s1, outs) := Run(cfg, s, init);
    var (s2, o) := SampleStep(cfg, rs[|rs| - 1].filterflag, s1, rs[|rs| - 1].reading);
    assert Run(cfg, s, rs) == (s2, outs + [o]);
  }

  /** A report at the last line needs a fall after any earlier report. */
  lemma FallBeforeLastReport(cfg: Config, s: Samples, rs: seq<Feed>, i: nat)
    requires WellFormed(cfg, s)
    requires i < |rs| - 1 && IsReport(Run(cfg, s, rs).1[i])
    requires IsReport(Run(cfg, s, rs).1[|rs| - 1])
    ensures exists k :: i < k < |rs| && IsFall(Run(cfg, s, rs).1[k])
  {
    if forall k :: i < k < |rs| ==> !IsFall(Run(cfg, s, rs).1[k]) {
      SilentUntilFall(cfg, s, rs, i);
      assert false;
    }
  }

  /** A report followed by no fall silences the last sample. */
  lemma {:induction false} SilentUntilFall(cfg: Config, s: Samples, rs: seq<Feed>, i: nat)
    requires WellFormed(cfg, s)
    requires i < |rs| - 1 && IsReport(Run(cfg, s, rs).1[i])
    requires forall k :: i < k < |rs| ==> !IsFall(Run(cfg, s, rs).1[k])
    ensures !IsReport(Run(cfg, s, rs).1[|rs| - 1])
  {
    var init := rs[..|rs| - 1];
    var f := rs[|rs| - 1];
    var r := f.reading;
    var (s1, outs) := Run(cfg, s, init);
    var (s2, o) := SampleStep(cfg, f.filterflag, s1, r);
    assert Run(cfg, s, rs) == (s2, outs + [o]);
    forall k | i <= k < |outs|
      ensures outs[k] == Run(cfg, s, rs).1[k]
    {
      assert (outs + [o])[k] == outs[k];
    }
    assert (outs + [o])[|rs| - 1] == o;
    ReportKeepsPrinted(cfg, s, init, i);
    StepDebounce(cfg, f.filterflag, s1, r);
  }
}
